=== FILE: README.md ===
# Timesheet upload reconciliation, modelled in Dafny

HR_BRIDGE's timesheet controller accepts a spreadsheet of attendance rows. It
reconciles the rows, one by one, against the `timesheets` table: at most one
entry per employee and calendar day. There are two live handlers, one per layout:

- `uploadTimesheetWithSequelizeUpsert` reads the attendance-device export. Its
  columns are `Personnel ID`, `Record Date` and `Punch Time`, where the punch
  list is separated by `;`. The first punch becomes the check-in and the last
  one the check-out. Each row is written with one atomic upsert on
  (employee_id, date).
- `uploadTimesheet` reads a flat layout: `mapped_id`, `Date`, `Check In` and
  `Check Out`. It looks up the (employee_id, date) entry, then updates it by id
  or creates it.

Each row is either skipped at the first check it fails, or resolved to an
employee, a date and the day's times and hours, and then written. The handler
counts rows as `created`, `updated` or `skipped`. It returns that summary and
one record per written row.

The project is organised as follows:

- `options.dfy`: `Option` and `Result`.
- `jstext.dfy`: `trim`, `split` and digit strings.
- `jsnumbers.dfy`: `Number()`, `Number.isInteger`, `parseInt` and `String(n)`.
  Spreadsheet numbers are held as exact decimals.
- `calendar.dfy`: proleptic Gregorian dates and the `YYYY-MM-DD` / `HH:MM:SS`
  renderings.
- `helpers.dfy`: the controller's `parseDate`, `parseTime` and
  `calculateTotalHours`.
- `employees.dfy`: the Employee model, the lookup by `mapped_id` and the two
  name formats.
- `timesheets.dfy`: the Timesheet model as a table keyed by (employee_id, date),
  plus its writes: `upsert`, `findOne`, `update` by id and `create`.
- `rows.dfy`: the per-row checks of both layouts. No check reads the table.
- `batches.dfy`: the row loop as a fold of writes over the rows' outcomes, with
  the counting, ordering, last-write-wins and idempotence lemmas.
- `upload.dfy`: the two handlers as loop methods, connected to the fold.

Things outside the program become parameters:

- the decoded rows (`seq<RawRow>`);
- the employees table (`Directory`);
- the timesheets table (`Ledger`);
- the time of the writes (`now`), one value for a whole upload.

## Model

| member | source | states |
|---|---|---|
| JsText.Trim | controllers/timesheet.controller.js:70 | the result has no white space at either end, is the slice of the input after its leading white space, and is empty exactly when the input is all white space |
| JsText.Split | controllers/timesheet.controller.js:102 | `split(';')` gives at least one piece, no piece holds the separator, and joining the pieces gives the input back |
| JsText.SplitJoin | controllers/timesheet.controller.js:102 | splitting the join of separator-free pieces gives the same pieces |
| JsText.TrimTrimmed | controllers/timesheet.controller.js:102 | trimming a string without white space at its ends leaves it unchanged |
| JsNumbers.TruncateMeaning | controllers/timesheet.controller.js:76-77 | the integer value of a number keeps its sign, differs from it by less than one, and is exact when `Number.isInteger` holds |
| JsNumbers.NumberOf | controllers/timesheet.controller.js:76 | `Number` reads blank text as 0 and a plain decimal numeral as its value |
| JsNumbers.NumberOfIntText | controllers/timesheet.controller.js:76 | the numeral of any integer, sign included, reads back as that integer |
| JsNumbers.ParseInt | controllers/timesheet.controller.js:186 | `parseInt` gives NaN for blank text and reads a plain decimal numeral as its value |
| JsNumbers.ParseIntOfIntText | controllers/timesheet.controller.js:186 | the numeral of any integer, sign included, reads back as that integer |
| JsNumbers.ParseIntLeadingDigits | controllers/timesheet.controller.js:186 | a numeral followed by text that does not continue it reads as the numeral alone |
| JsNumbers.NumberText | controllers/timesheet.controller.js:102 | a number's string form is never empty and contains neither `;` nor `:`, so it is always a single punch token and never a time; every zero is written `0` |
| JsNumbers.NumberTextReadsBack | controllers/timesheet.controller.js:186 | `parseInt` of a number's string form is the number rounded toward zero, sign included |
| JsNumbers.ParseIntNegativeLeading | controllers/timesheet.controller.js:186 | a minus sign and a numeral followed by text that does not continue it read as the negated numeral |
| Calendar.DateOfDay | controllers/timesheet.controller.js:10 | the calendar date of a day number is a valid date whose day number is that number |
| Calendar.DateOfDayNumber | controllers/timesheet.controller.js:10 | converting a valid date to its day number and back gives the same date |
| Calendar.DayNumberInjective | controllers/timesheet.controller.js:10 | two valid dates with the same day number are equal |
| Helpers.DateOfTimeValue | controllers/timesheet.controller.js:9-10 | a numeric cell is read as epoch milliseconds: it is an invalid date exactly when its magnitude passes 8.64e15 ms, and otherwise gives the valid UTC calendar date whose day number is the milliseconds divided by 86 400 000, rounded down |
| Helpers.ParseIsoDate | controllers/timesheet.controller.js:9 | any date read from `YYYY-MM-DD` text is a valid calendar date |
| Helpers.IsoDateOfDate | controllers/timesheet.controller.js:9-10 | the `YYYY-MM-DD` text of a date in years 0..9999 reads back as that date |
| Helpers.ParseDate | controllers/timesheet.controller.js:7-11 | a missing cell, the empty string and the number zero give null; any date produced is a valid calendar date |
| Helpers.ParseTimeText | controllers/timesheet.controller.js:14-18 | a time text gives a valid time of day or null, and the empty string gives null |
| Helpers.ParseTime | controllers/timesheet.controller.js:14-18 | any time a cell gives is a valid time of day |
| Helpers.NumberIsNoTime | controllers/timesheet.controller.js:14-18 | a numeric cell never parses as a time, because its string has no `:` |
| Helpers.RoundedHundredths | controllers/timesheet.controller.js:25-26 | the hundredths of an hour lie within half a hundredth (18 s) of the elapsed seconds, ties going away from zero |
| Helpers.CalculateTotalHours | controllers/timesheet.controller.js:21-27 | a null or empty check-in or check-out gives null |
| Helpers.HourMinuteText | controllers/timesheet.controller.js:16 | `H:MM` and `HH:MM` text reads as that hour and minute with zero seconds, when the fields are in range |
| Helpers.TimeRoundTrip | controllers/timesheet.controller.js:17-24 | the `HH:MM:SS` string `parseTime` returns parses back to the same time, so `calculateTotalHours` sees the times `parseTime` produced |
| Helpers.DateRoundTrip | controllers/timesheet.controller.js:7-11 | the `YYYY-MM-DD` string of a date in years 0..9999 parses back to the same date |
| Helpers.IsoDateRollover | controllers/timesheet.controller.js:9 | an ISO date whose day is past its month's end (up to 31) rolls over into the next month instead of being rejected |
| Helpers.HundredthsWithinDay | controllers/timesheet.controller.js:25-26 | for less than a day of elapsed time, the rounded hours lie within ±24.00 and keep the sign of the elapsed time |
| Helpers.TotalHoursOfTimes | controllers/timesheet.controller.js:21-27 | for two parsed times the total is never NaN: it is the signed elapsed time rounded to hundredths, storable in DECIMAL(5,2), negative when check-out is earlier |
| Helpers.TotalHoursStorable | controllers/timesheet.controller.js:22 | for the hours stored for optional times, they are null exactly when a time is missing, and always fit the column |
| Helpers.NineAndAHalfHours | controllers/timesheet.controller.js:21-27 | 08:00:00 to 17:30:00 gives 9.50 |
| Helpers.NightShiftIsNegative | controllers/timesheet.controller.js:21-27 | 22:00:00 to 06:00:00 gives -16.00: nothing wraps past midnight and nothing is clamped |
| Employees.FindByMappedId | controllers/timesheet.controller.js:30-32 | a found employee is in the directory and carries that `mapped_id`; nothing is found exactly when no employee carries it |
| Employees.FindByMappedIdUnique | models/employee.model.js:28-32 | with unique `mapped_id`s, the lookup of a code some employee carries returns that employee, so lookup is a partial function |
| Employees.OutcomeName | controllers/timesheet.controller.js:136 | the upload's name has no white space at its ends |
| Employees.ListingName | controllers/timesheet.controller.js:474 | the listing's name has no white space at its ends |
| Employees.NamesWithMiddle | controllers/timesheet.controller.js:474 | with a middle name, both formats give `first middle last` with single spaces |
| Employees.NamesWithoutMiddle | controllers/timesheet.controller.js:136 | without a middle name, the upload format keeps a double inner space, the listing format has one, and the two differ |
| Timesheets.Find | controllers/timesheet.controller.js:209-211 | an entry is found exactly when the key is in the table, it is the entry stored under that key, and on a valid table it carries that key |
| Timesheets.Create | controllers/timesheet.controller.js:222-228 | the new entry sits under its key with the row's fields, the next id and both timestamps `now`; every other entry is unchanged |
| Timesheets.Revise | controllers/timesheet.controller.js:215-218 | an update changes only check-in, check-out, total hours and `updatedAt`; the id, employee, date and creation time stay |
| Timesheets.UpdateById | controllers/timesheet.controller.js:215-218 | an update by id keeps the table's keys and next id |
| Timesheets.UpdateByIdTouchesOneEntry | controllers/timesheet.controller.js:215-218 | with distinct ids, updating by the id of the entry under a key revises that one entry and no other |
| Timesheets.Upsert | controllers/timesheet.controller.js:119-127 | the result is created exactly when the key was absent; afterwards the key holds the row's fields stamped `now`; an existing entry keeps its id, key and creation time; a new one gets the next id; no other entry changes |
| Timesheets.FindThenWrite | controllers/timesheet.controller.js:209-231 | find-then-write creates exactly when no entry had the key |
| Timesheets.FindThenWriteIsUpsert | controllers/timesheet.controller.js:209-231 | on a valid table, find-then-update-or-create has exactly the effect of the atomic upsert |
| Timesheets.UpsertKeepsLedgerValid | models/timesheet.model.js:36-40 | upserting well-typed values keeps one entry per (employee_id, date) and distinct ids |
| Rows.Lookup | controllers/timesheet.controller.js:85-90 | a row resolves to an employee carrying the id, or is skipped exactly when nobody carries it |
| Rows.PersonnelId | controllers/timesheet.controller.js:70-81 | a null, empty or all-white-space id is a missing id; otherwise it is invalid exactly when `Number` gives NaN or a non-integer; an accepted id is that integer |
| Rows.MappedId | controllers/timesheet.controller.js:185-191 | every number is accepted, and its id is the number rounded toward zero: an integer as it is, any other number through `parseInt` of its string form (so -0.5 gives 0 and 12.5 gives 12); text is accepted exactly when `parseInt` finds digits, and the id is then what `parseInt` reads; a missing cell is skipped |
| Rows.IntTextReadsBack | controllers/timesheet.controller.js:76-81 | the numeral of any integer is accepted by both layouts as that integer, so a row is never skipped for a well-written id |
| Rows.LenientTextId | controllers/timesheet.controller.js:186 | the text `12abc` gives mapped id 12 in the flat layout but is an invalid Personnel ID in the punch layout |
| Rows.LenientNumberId | controllers/timesheet.controller.js:186 | the number 12.5 gives mapped id 12 in the flat layout but is an invalid Personnel ID in the punch layout |
| Rows.NonBlank | controllers/timesheet.controller.js:102 | trimming the pieces and dropping the empty ones leaves only clean tokens, and leaves nothing exactly when every piece is blank |
| Rows.NonBlankAppend | controllers/timesheet.controller.js:102 | trim-and-filter of two piece lists put together is the two results put together, so every piece is kept or dropped on its own |
| Rows.NonBlankOne | controllers/timesheet.controller.js:102 | one piece is dropped exactly when it is blank, and is otherwise kept trimmed |
| Rows.FirstNonBlank | controllers/timesheet.controller.js:102-109 | the first punch is the first piece that is not blank, trimmed |
| Rows.LastNonBlank | controllers/timesheet.controller.js:102-116 | the last punch is the last piece that is not blank, trimmed |
| Rows.TrailingSeparator | controllers/timesheet.controller.js:101-102 | a trailing `;` leaves the punch list unchanged |
| Rows.PunchTokens | controllers/timesheet.controller.js:101-102 | the punch list holds clean tokens and is empty exactly when every `;` piece is blank |
| Rows.NonBlankOfClean | controllers/timesheet.controller.js:102 | clean pieces pass through trim-and-filter unchanged |
| Rows.PunchText | controllers/timesheet.controller.js:101 | the punch text is empty exactly for a missing cell, the empty string and the number 0; a number's text holds no `;` |
| Rows.NonBlankOfPieces | controllers/timesheet.controller.js:102 | pieces that are not blank are all kept, each trimmed |
| Rows.PunchTokensOfPieces | controllers/timesheet.controller.js:102 | the punch list of `;`-joined pieces, none blank, is the pieces trimmed, so `08:00; 17:00` gives `08:00` and `17:00` |
| Rows.ParseTimeOfTrim | controllers/timesheet.controller.js:16 | trimming a punch before parsing it changes nothing |
| Rows.PunchTokensOfJoin | controllers/timesheet.controller.js:101-102 | the punch list of clean tokens joined by `;` is those tokens |
| Rows.ResolvePunches | controllers/timesheet.controller.js:67-117 | a blank id is skipped as missing whatever the other columns hold; a non-integer id is invalid; a row is written exactly when its id is an integer of a known employee, its date parses, its punch list is non-empty and the first punch is a time; the written check-in is the first punch, the check-out the last one (null if it does not parse), the hours follow from them |
| Rows.FirstAndLastPunch | controllers/timesheet.controller.js:101-117 | for a punch cell of `;`-separated pieces, not all blank, the row is written exactly when the id, employee and date pass and the first piece that is not blank is a time; then the check-in is that piece and the check-out the last piece that is not blank, whatever lies between; blank pieces (`08:00;;17:00`, a trailing `;`) are skipped |
| Rows.FourPunches | controllers/timesheet.controller.js:101-117 | the cell `08:00; 12:00; 13:00; 17:00`, when written, gives check-in 08:00:00 and check-out 17:00:00 |
| Rows.ResolveFlat | controllers/timesheet.controller.js:185-207 | a flat row is written exactly when its mapped id reads, names a known employee and its date parses; both times are optional and the hours follow from them |
| Rows.ResolvedIsStorable | models/timesheet.model.js:10-29 | with a well-formed directory, a resolved row names an employee of it, has a valid key and storable fields, and its hours are null exactly when a time is missing |
| Rows.OutcomeAt | controllers/timesheet.controller.js:63-64 | the i-th outcome is the resolution of the i-th row |
| Batches.RecordOf | controllers/timesheet.controller.js:133-142 | a record carries the employee's mapped_id and employee_id, the upload name, the row's date, check-in, check-out and hours, and the write's action |
| Batches.Records | controllers/timesheet.controller.js:133-142 | the records list has one record per written row, the i-th describing the i-th write |
| Batches.Write | controllers/timesheet.controller.js:119-127 | both handlers' writes create exactly when the key was absent and add the key to the table |
| Batches.WriteIsUpsert | controllers/timesheet.controller.js:209-231 | on a valid table both handlers write the same thing |
| Batches.Step | controllers/timesheet.controller.js:63-145 | each row adds exactly one to the three counters; a skipped row changes nothing else; a resolved row is written and counted as created or updated, according to whether its key was new, and its record is appended |
| Batches.Run | controllers/timesheet.controller.js:63-145 | created + updated + skipped grows by the number of rows, and the records grow by the number created plus the number updated |
| Batches.RunCounts | controllers/timesheet.controller.js:184-243 | created plus updated is the number of resolved rows; skipped is the number of the others |
| Batches.RunKeys | controllers/timesheet.controller.js:119-127 | a run adds to the table exactly the keys of its resolved rows |
| Batches.RunKeepsRecords | controllers/timesheet.controller.js:133 | a run never changes the records already pushed |
| Batches.RunRecords | controllers/timesheet.controller.js:129-142 | the records a run appends are its resolved rows, one each, in row order |
| Batches.RunAppend | controllers/timesheet.controller.js:63-145 | processing two row lists one after the other is processing their concatenation |
| Batches.RunSnoc | controllers/timesheet.controller.js:63-145 | processing one more row after a run is one more step |
| Batches.RunKeepsLedgerValid | models/timesheet.model.js:36-40 | writing storable rows keeps one entry per key, distinct ids, and the foreign key to employees |
| Batches.LastWriteWins | controllers/timesheet.controller.js:209-231 | after a run, a key some row writes holds the fields of the last such row; a key no row writes is exactly as before |
| Batches.RunOverKnownKeys | controllers/timesheet.controller.js:213-220 | when every written key is already in the table, nothing is created and every appended record says updated |
| Batches.WritesAgree | controllers/timesheet.controller.js:209-231 | on a valid table, the upsert handler and the find-then-write handler build the same batch from the same outcomes |
| Batches.RerunIsIdempotent | controllers/timesheet.controller.js:184-231 | processing the same outcomes again creates nothing; every earlier write becomes an update; the same rows are skipped; the keys and every entry's times and hours stay; the records repeat with action updated |
| Batches.DuplicateKeyLastRowWins | controllers/timesheet.controller.js:184-231 | two rows for the same new (employee, date) give one created and one updated, in that order; the entry ends with the second row's values under the new id |
| Upload.OutcomesStorable | models/timesheet.model.js:10-29 | with a well-formed directory, every row's outcome can be stored |
| Upload.Reconcile | controllers/timesheet.controller.js:60-145 | an upload counts every row exactly once, and its records are exactly as many as the rows created plus those updated |
| Upload.ReconcileKeepsLedgerValid | models/timesheet.model.js:36-40 | an upload into a valid table leaves a valid table that still refers only to known employees |
| Upload.ReconcileRecordsInOrder | controllers/timesheet.controller.js:129-142 | an upload's records are its resolved rows, one each, in row order |
| Upload.ReuploadCreatesNothing | controllers/timesheet.controller.js:184-231 | uploading the same sheet again creates nothing; the same rows are skipped; the table keeps its keys, times and hours |
| Upload.RecordsSnoc | controllers/timesheet.controller.js:133 | pushing a record onto the written rows pushes its record onto the list |
| Upload.UpsertRow | controllers/timesheet.controller.js:119-142 | the rest of a packed row's iteration leaves the handler's locals as the fold's step leaves the batch |
| Upload.FindThenWriteRow | controllers/timesheet.controller.js:209-242 | the rest of a flat row's iteration (find, then update by id or create, count, push) leaves the locals as the fold's step does |
| Upload.UploadWithUpsert | controllers/timesheet.controller.js:56-152 | no rows gives the "no rows" error and an untouched table; otherwise the summary and records are those of the fold, counting every row once, with one record per created or updated row |
| Upload.UploadFlat | controllers/timesheet.controller.js:177-250 | no rows gives the "no rows" error and an untouched table; otherwise the summary and records are those of the fold, counting every row once, with one record per created or updated row |

## Left out

- Reading the Excel file (`xlsx.readFile`, `sheet_to_json`, the skipped title row) is a foreign library, so the model starts from decoded rows. A decoded cell is missing, a string or a number.
- Boolean cells are left out. `sheet_to_json` yields `true`/`false` for a TRUE/FALSE cell; the program would then read `Number(true)` as id 1, `Number(false)` as id 0 and `new Date(true)` as 1970-01-01.
- The HTTP layer is not modelled: the missing-file check, the status codes, the 500 answers for thrown errors, and logging. The commented-out handler variants and `getEmployeeTimesheets` are left out too. That method exists only as a comment, so routes/timesheet.routes.js:45 passes `undefined` to `router.get`, which Express rejects when app.js:7 loads the router.
- The database is a map keyed by (employee_id, date). There is no SQL, and concurrent uploads are not modelled. The `created` flag of Sequelize's `upsert` is taken to be true exactly for an insert. A dialect that reports no `created` flag makes the punch-layout handler count every write as updated (the flat layout decides by its own lookup). The created and updated counts stated by `Timesheets.Upsert`, `Batches.RerunIsIdempotent` and `Batches.DuplicateKeyLastRowWins` then hold only where the flag is reported.
- The two listing endpoints are left out, because their queries and ordering are database work. Only their name format is modelled (`Employees.ListingName`).
- Entry ids are drawn gap-free: an insert takes the next id and an update takes none. A database whose upsert draws an auto-increment value even when it updates would number later entries differently, so the two handlers agree on the table up to entry ids.
- `uploadTimesheet` is a prototype method, and the route passes it without its receiver. Class bodies are strict code, so `this` is then undefined. Reading `this.getEmployeeByMappedId` at the first row whose `mapped_id` reads throws a TypeError inside the handler's `try`, and the `catch` answers 500. `Upload.UploadFlat` models the handler as called on the controller, which is how the arrow-function handler is always called.
- The clock is a parameter. All writes of one upload are stamped with the same `now`, where the program reads the clock per write.
- Date strings are modelled only in ISO `YYYY-MM-DD` form, with the engine's day rollover. Any other text (including ISO strings with a time part) and any local-timezone parsing are engine-dependent, so such text is treated as an invalid date.
- `parseTime` prefixes the date `1970-01-01 `, which makes the engine parse in local time. The model takes that local time zone to have no offset and accepts `H:MM` / `H:MM:SS` only. Other forms (AM/PM, fractional seconds) are treated as invalid. The engine also reads `24:00` and a cell of white space alone as midnight; the model treats both as invalid.
- A numeric date cell is read as epoch milliseconds, as `new Date(n)` does. A spreadsheet date serial number therefore lands in January 1970 in the model, just as it does in the program.
- Binary floating point is not modelled: numbers are exact decimals. Precision beyond 2^53 is not modelled either. `String(n)` switches to exponent notation outside 1e-6 .. 1e21, which the model does not render.
- Helpers.RoundedHundredths: rounds exact ties away from zero. `toFixed(2)` on a binary double can round a tie the other way.
- Rows.MappedId: the string form of a number that is not an integer is positional. JavaScript writes a number below 1e-6 in magnitude in exponent notation (`1e-7`), and `parseInt` then reads its first digit; the model reads it as 0.

=== FILE: batches.dfy ===
/** The reconciliation loop shared by the two upload handlers: resolved rows are
    written into the timesheets table one at a time, in row order, and the batch
    keeps its tallies (`summary`) and its list of outcome records (`records`).
    Resolution does not depend on the table, so a batch is the fold of the writes
    over the rows' outcomes. */
module Batches {
  import opened Options
  import opened Calendar
  import opened Helpers
  import opened Employees
  import opened Timesheets
  import opened Rows

  /** What the checks made of one row. */
  type Outcome = Result<Resolved, SkipReason>

  /** Resolved rows that name employees of `dir` and can be stored. */
  predicate Storable(outs: seq<Outcome>, dir: Directory) {
    forall i :: 0 <= i < |outs| && outs[i].Ok? ==>
      && outs[i].value.employee in dir
      && ValidKey(KeyOfResolved(outs[i].value))
      && ValidFields(outs[i].value.fields)
  }

  lemma StorableTail(outs: seq<Outcome>, dir: Directory)
    requires outs != [] && Storable(outs, dir)
    ensures Storable(outs[1..], dir)
  {
    assert forall i :: 0 <= i < |outs| - 1 ==> outs[1..][i] == outs[i + 1];
  }

  /** A written row and what the write did: the content of one element of the
      response's `records` list. */
  datatype Processed = Processed(resolved: Resolved, action: Action)

  /** One element of the response's `records` list. */
  datatype OutcomeRecord = OutcomeRecord(
    mappedId: Option<int>,
    employeeId: string,
    name: string,
    date: Date,
    checkIn: Option<TimeOfDay>,
    checkOut: Option<TimeOfDay>,
    totalHours: Hours,
    action: Action)

  /** The record of a written row: the employee's codes and upload-style name, the
      row's date and values, and what the write did. */
  function RecordOf(p: Processed): (r: OutcomeRecord)
    ensures r.name == OutcomeName(p.resolved.employee) && r.action == p.action
    ensures r.employeeId == p.resolved.employee.employeeId && r.date == p.resolved.date
    ensures r.mappedId == p.resolved.employee.mappedId
    ensures r.checkIn == p.resolved.fields.checkIn && r.checkOut == p.resolved.fields.checkOut
    ensures r.totalHours == p.resolved.fields.totalHours
  {
    var res := p.resolved;
    OutcomeRecord(res.employee.mappedId, res.employee.employeeId, OutcomeName(res.employee),
      res.date, res.fields.checkIn, res.fields.checkOut, res.fields.totalHours, p.action)
  }

  /** The response's `records` list: one record per written row, in order. */
  function Records(ps: seq<Processed>): (r: seq<OutcomeRecord>)
    ensures |r| == |ps|
    ensures forall i :: 0 <= i < |ps| ==> r[i] == RecordOf(ps[i])
  {
    if ps == [] then [] else Records(ps[..|ps| - 1]) + [RecordOf(ps[|ps| - 1])]
  }

  /** The response's `summary`. */
  datatype Stats = Stats(created: nat, updated: nat, skipped: nat)

  /** The state of a batch between rows: the table, the three tallies and the
      records. */
  datatype Batch = Batch(ledger: Ledger, created: nat, updated: nat, skipped: nat, records: seq<Processed>)

  /** The rows a batch has counted. */
  function Counted(b: Batch): nat {
    b.created + b.updated + b.skipped
  }

  function Summary(b: Batch): Stats {
    Stats(b.created, b.updated, b.skipped)
  }

  /** The write a handler issues for a resolved row. */
  function Write(format: Format, l: Ledger, k: Key, f: Fields, now: int): (r: (Ledger, Action))
    ensures r.1 == Created <==> k !in l.entries
    ensures r.0.entries.Keys == l.entries.Keys + {k}
  {
    match format
    case Punches => Upsert(l, k, f, now)
    case Flat => FindThenWrite(l, k, f, now)
  }

  /** Both handlers write the same thing into a table that keeps its invariants. */
  lemma WriteIsUpsert(format: Format, l: Ledger, k: Key, f: Fields, now: int)
    requires ValidLedger(l)
    ensures Write(format, l, k, f, now) == Upsert(l, k, f, now)
  {
    if format == Flat {
      FindThenWriteIsUpsert(l, k, f, now);
    }
  }

  /** One row: a skipped row only bumps `skipped`; a resolved row is written and
      counted as created or updated, and its record is appended. */
  function Step(format: Format, now: int, b: Batch, o: Outcome): (r: Batch)
    ensures Counted(r) == Counted(b) + 1
    ensures o.Err? ==> r == b.(skipped := b.skipped + 1)
    ensures o.Ok? ==>
      var action := if KeyOfResolved(o.value) in b.ledger.entries then Updated else Created;
      && r.records == b.records + [Processed(o.value, action)]
      && r.ledger == Write(format, b.ledger, KeyOfResolved(o.value), o.value.fields, now).0
      && (action == Created ==> r.created == b.created + 1 && r.updated == b.updated && r.skipped == b.skipped)
      && (action == Updated ==> r.created == b.created && r.updated == b.updated + 1 && r.skipped == b.skipped)
  {
    match o
    case Err(_) => b.(skipped := b.skipped + 1)
    case Ok(res) =>
      var w := Write(format, b.ledger, KeyOfResolved(res), res.fields, now);
      var records := b.records + [Processed(res, w.1)];
      if w.1 == Created then Batch(w.0, b.created + 1, b.updated, b.skipped, records)
      else Batch(w.0, b.created, b.updated + 1, b.skipped, records)
  }

  /** The resolved rows among the outcomes, in order. */
  function Resolutions(outs: seq<Outcome>): (r: seq<Resolved>)
    ensures |r| <= |outs|
  {
    if outs == [] then []
    else if outs[0].Ok? then [outs[0].value] + Resolutions(outs[1..])
    else Resolutions(outs[1..])
  }

  /** The keys the resolved rows write. */
  function WrittenKeys(outs: seq<Outcome>): set<Key> {
    if outs == [] then {}
    else if outs[0].Ok? then {KeyOfResolved(outs[0].value)} + WrittenKeys(outs[1..])
    else WrittenKeys(outs[1..])
  }

  /** Rows processed in order. Every row is counted exactly once, the skipped ones
      under `skipped`; each resolved row is written, adding its key to the table,
      and produces one record. */
  function Run(format: Format, now: int, b: Batch, outs: seq<Outcome>): (r: Batch)
    ensures Counted(r) == Counted(b) + |outs|
    ensures r.created >= b.created && r.updated >= b.updated
    ensures |r.records| == |b.records| + (r.created - b.created) + (r.updated - b.updated)
    decreases |outs|
  {
    if outs == [] then b
    else Run(format, now, Step(format, now, b, outs[0]), outs[1..])
  }

  /** Exactly the resolved rows are written; the others are skipped. */
  lemma {:induction false} RunCounts(format: Format, now: int, b: Batch, outs: seq<Outcome>)
    ensures var r := Run(format, now, b, outs);
      && (r.created - b.created) + (r.updated - b.updated) == |Resolutions(outs)|
      && r.skipped == b.skipped + |outs| - |Resolutions(outs)|
    decreases |outs|
  {
    if outs != [] {
      RunCounts(format, now, Step(format, now, b, outs[0]), outs[1..]);
    }
  }

  /** A run adds to the table exactly the keys its resolved rows write. */
  lemma {:induction false} RunKeys(format: Format, now: int, b: Batch, outs: seq<Outcome>)
    ensures Run(format, now, b, outs).ledger.entries.Keys == b.ledger.entries.Keys + WrittenKeys(outs)
    decreases |outs|
  {
    if outs != [] {
      RunKeys(format, now, Step(format, now, b, outs[0]), outs[1..]);
    }
  }

  /** Records match resolved rows one to one, in order, up to their action. */
  predicate Describes(records: seq<Processed>, resolved: seq<Resolved>) {
    |records| == |resolved| &&
    forall i :: 0 <= i < |records| ==> records[i].resolved == resolved[i]
  }

  lemma DescribesCons(rec: Processed, res: Resolved, recs: seq<Processed>, ress: seq<Resolved>)
    requires rec.resolved == res && Describes(recs, ress)
    ensures Describes([rec] + recs, [res] + ress)
  {
    assert forall i :: 1 <= i < |recs| + 1 ==> ([rec] + recs)[i] == recs[i - 1];
    assert forall i :: 1 <= i < |ress| + 1 ==> ([res] + ress)[i] == ress[i - 1];
  }

  /** A run keeps the records it started with. */
  lemma {:induction false} RunKeepsRecords(format: Format, now: int, b: Batch, outs: seq<Outcome>)
    ensures var r := Run(format, now, b, outs);
      |b.records| <= |r.records| && r.records[..|b.records|] == b.records
    decreases |outs|
  {
    if outs != [] {
      var next := Step(format, now, b, outs[0]);
      var r := Run(format, now, next, outs[1..]);
      RunKeepsRecords(format, now, next, outs[1..]);
      assert next.records[..|b.records|] == b.records;
      assert r.records[..|b.records|] == r.records[..|next.records|][..|b.records|];
    }
  }

  /** A run appends one record per resolved row, in row order. */
  lemma {:induction false} RunRecords(format: Format, now: int, b: Batch, outs: seq<Outcome>)
    ensures var r := Run(format, now, b, outs);
      |b.records| <= |r.records| && Describes(r.records[|b.records|..], Resolutions(outs))
    decreases |outs|
  {
    if outs != [] {
      var next := Step(format, now, b, outs[0]);
      var r := Run(format, now, next, outs[1..]);
      RunRecords(format, now, next, outs[1..]);
      if outs[0].Ok? {
        RunKeepsRecords(format, now, next, outs[1..]);
        var rec := next.records[|b.records|];
        assert r.records[|b.records|] == rec;
        assert r.records[|b.records|..] == [rec] + r.records[|next.records|..];
        DescribesCons(rec, outs[0].value, r.records[|next.records|..], Resolutions(outs[1..]));
      }
    }
  }

  /** Processing two lists of rows one after the other is processing their
      concatenation. */
  lemma {:induction false} RunAppend(format: Format, now: int, b: Batch, xs: seq<Outcome>, ys: seq<Outcome>)
    ensures Run(format, now, b, xs + ys) == Run(format, now, Run(format, now, b, xs), ys)
    decreases |xs|
  {
    if xs == [] {
      assert xs + ys == ys;
    } else {
      var next := Step(format, now, b, xs[0]);
      assert (xs + ys)[0] == xs[0];
      assert (xs + ys)[1..] == xs[1..] + ys;
      assert Run(format, now, b, xs + ys) == Run(format, now, next, xs[1..] + ys);
      RunAppend(format, now, next, xs[1..], ys);
    }
  }

  /** Processing one more row after a run is one more step. */
  lemma RunSnoc(format: Format, now: int, b: Batch, outs: seq<Outcome>, i: int)
    requires 0 <= i < |outs|
    ensures Run(format, now, b, outs[..i + 1]) == Step(format, now, Run(format, now, b, outs[..i]), outs[i])
  {
    assert outs[..i + 1] == outs[..i] + [outs[i]];
    RunAppend(format, now, b, outs[..i], [outs[i]]);
    assert [outs[i]][1..] == [];
  }

  /** Writing storable rows keeps the table's invariants and its foreign key. */
  lemma {:induction false} RunKeepsLedgerValid(format: Format, now: int, b: Batch, outs: seq<Outcome>, dir: Directory)
    requires ValidLedger(b.ledger) && RefersTo(b.ledger, dir) && Storable(outs, dir)
    ensures ValidLedger(Run(format, now, b, outs).ledger)
    ensures RefersTo(Run(format, now, b, outs).ledger, dir)
    decreases |outs|
  {
    if outs != [] {
      var next := Step(format, now, b, outs[0]);
      if outs[0].Ok? {
        var res := outs[0].value;
        WriteIsUpsert(format, b.ledger, KeyOfResolved(res), res.fields, now);
        UpsertKeepsLedgerValid(b.ledger, KeyOfResolved(res), res.fields, now);
        var j :| 0 <= j < |dir| && dir[j] == res.employee;
        UpsertKeepsReferences(b.ledger, dir, j, res.date, res.fields, now);
      }
      StorableTail(outs, dir);
      RunKeepsLedgerValid(format, now, next, outs[1..], dir);
    }
  }

  /** The fields of the last resolved row that writes key `k`, if any. */
  function LastFields(outs: seq<Outcome>, k: Key): Option<Fields> {
    if outs == [] then None
    else match LastFields(outs[1..], k)
      case Some(f) => Some(f)
      case None =>
        if outs[0].Ok? && KeyOfResolved(outs[0].value) == k then Some(outs[0].value.fields) else None
  }

  /** Last write wins: after a run, a key some row writes holds the fields of the
      last such row; a key no row writes is exactly as before. */
  lemma {:induction false} LastWriteWins(format: Format, now: int, b: Batch, outs: seq<Outcome>, dir: Directory, k: Key)
    requires ValidLedger(b.ledger) && Storable(outs, dir)
    ensures var r := Run(format, now, b, outs).ledger;
      match LastFields(outs, k)
      case Some(f) => k in r.entries && FieldsOf(r.entries[k]) == f
      case None =>
        && (k in r.entries <==> k in b.ledger.entries)
        && (k in b.ledger.entries ==> r.entries[k] == b.ledger.entries[k])
    decreases |outs|
  {
    if outs != [] {
      var next := Step(format, now, b, outs[0]);
      if outs[0].Ok? {
        var res := outs[0].value;
        WriteIsUpsert(format, b.ledger, KeyOfResolved(res), res.fields, now);
        UpsertKeepsLedgerValid(b.ledger, KeyOfResolved(res), res.fields, now);
      }
      StorableTail(outs, dir);
      LastWriteWins(format, now, next, outs[1..], dir, k);
    }
  }

  /** When every key the rows write is already in the table, nothing is created:
      every resolved row is an update. */
  lemma {:induction false} RunOverKnownKeys(format: Format, now: int, b: Batch, outs: seq<Outcome>)
    requires WrittenKeys(outs) <= b.ledger.entries.Keys
    ensures var r := Run(format, now, b, outs);
      && r.created == b.created
      && forall i :: |b.records| <= i < |r.records| ==> r.records[i].action == Updated
    decreases |outs|
  {
    if outs != [] {
      var next := Step(format, now, b, outs[0]);
      var r := Run(format, now, next, outs[1..]);
      RunOverKnownKeys(format, now, next, outs[1..]);
      RunKeepsRecords(format, now, next, outs[1..]);
      if outs[0].Ok? {
        assert KeyOfResolved(outs[0].value) in b.ledger.entries;
        assert next.records[|b.records|].action == Updated;
        assert r.records[|b.records|] == r.records[..|next.records|][|b.records|];
      }
    }
  }

  /** Over a table that keeps its invariants, the atomic upsert and the
      find-then-write agree row for row, so the two handlers build the same batch
      from the same outcomes. */
  lemma {:induction false} WritesAgree(now: int, b: Batch, outs: seq<Outcome>, dir: Directory)
    requires ValidLedger(b.ledger) && Storable(outs, dir)
    ensures Run(Flat, now, b, outs) == Run(Punches, now, b, outs)
    decreases |outs|
  {
    if outs != [] {
      if outs[0].Ok? {
        var res := outs[0].value;
        WriteIsUpsert(Flat, b.ledger, KeyOfResolved(res), res.fields, now);
        UpsertKeepsLedgerValid(b.ledger, KeyOfResolved(res), res.fields, now);
      }
      assert Step(Flat, now, b, outs[0]) == Step(Punches, now, b, outs[0]);
      StorableTail(outs, dir);
      WritesAgree(now, Step(Punches, now, b, outs[0]), outs[1..], dir);
    }
  }

  /** An upload's batch before its first row. */
  function Start(l: Ledger): Batch {
    Batch(l, 0, 0, 0, [])
  }

  /** Processing the same outcomes again, at any time, creates nothing: every row
      written before is updated, the same rows are skipped, the table keeps its keys
      and every entry its times and hours, and the records repeat with action
      `updated`. */
  lemma RerunIsIdempotent(format: Format, now: int, later: int, l: Ledger, outs: seq<Outcome>, dir: Directory)
    requires ValidLedger(l) && RefersTo(l, dir) && Storable(outs, dir)
    ensures var b1 := Run(format, now, Start(l), outs);
      var b2 := Run(format, later, Start(b1.ledger), outs);
      && b2.created == 0 && b2.updated == b1.created + b1.updated && b2.skipped == b1.skipped
      && b2.ledger.entries.Keys == b1.ledger.entries.Keys
      && (forall k :: k in b1.ledger.entries ==> FieldsOf(b2.ledger.entries[k]) == FieldsOf(b1.ledger.entries[k]))
      && |b2.records| == |b1.records|
      && (forall i :: 0 <= i < |b2.records| ==> b2.records[i] == b1.records[i].(action := Updated))
  {
    var b1 := Run(format, now, Start(l), outs);
    var b2 := Run(format, later, Start(b1.ledger), outs);
    RunKeepsLedgerValid(format, now, Start(l), outs, dir);
    RunKeys(format, now, Start(l), outs);
    RunKeys(format, later, Start(b1.ledger), outs);
    RunCounts(format, now, Start(l), outs);
    RunCounts(format, later, Start(b1.ledger), outs);
    RunOverKnownKeys(format, later, Start(b1.ledger), outs);
    forall k | k in b1.ledger.entries
      ensures FieldsOf(b2.ledger.entries[k]) == FieldsOf(b1.ledger.entries[k])
    {
      LastWriteWins(format, now, Start(l), outs, dir, k);
      LastWriteWins(format, later, Start(b1.ledger), outs, dir, k);
    }
    RunRecords(format, now, Start(l), outs);
    RunRecords(format, later, Start(b1.ledger), outs);
    assert b1.records[0..] == b1.records && b2.records[0..] == b2.records;
  }

  /** Two resolved rows of one upload for the same employee and day, on a key the
      table does not hold: the first creates the entry, the second updates it, and
      the entry ends with the second row's times and hours under the new id. */
  lemma DuplicateKeyLastRowWins(format: Format, now: int, l: Ledger, first: Resolved, second: Resolved)
    requires ValidLedger(l) && ValidKey(KeyOfResolved(first)) && ValidFields(first.fields)
    requires KeyOfResolved(first) == KeyOfResolved(second) && KeyOfResolved(first) !in l.entries
    ensures var r := Run(format, now, Start(l), [Ok(first), Ok(second)]);
      var k := KeyOfResolved(first);
      && r.created == 1 && r.updated == 1 && r.skipped == 0
      && r.records == [Processed(first, Created), Processed(second, Updated)]
      && r.ledger.entries.Keys == l.entries.Keys + {k}
      && FieldsOf(r.ledger.entries[k]) == second.fields
      && r.ledger.entries[k].id == l.nextId
  {
    var k := KeyOfResolved(first);
    var outs: seq<Outcome> := [Ok(first), Ok(second)];
    var b0 := Start(l);
    WriteIsUpsert(format, l, k, first.fields, now);
    UpsertKeepsLedgerValid(l, k, first.fields, now);
    var b1 := Step(format, now, b0, Ok(first));
    assert b1.ledger == Upsert(l, k, first.fields, now).0;
    assert b1.records == [Processed(first, Created)];
    WriteIsUpsert(format, b1.ledger, k, second.fields, now);
    var b2 := Step(format, now, b1, Ok(second));
    assert b2.records == [Processed(first, Created), Processed(second, Updated)];
    assert outs[1..] == [Ok(second)] && outs[1..][1..] == [];
    assert Run(format, now, b0, outs) == Run(format, now, b1, [Ok(second)]);
    assert Run(format, now, b1, [Ok(second)]) == Run(format, now, b2, []);
  }
}

=== FILE: calendar.dfy ===
/** Proleptic Gregorian calendar dates and times of day, with the epoch-day
    arithmetic JavaScript's `Date` uses (day 0 is 1 January 1970, UTC). */
module Calendar {
  import opened JsText

  datatype Date = Date(year: int, month: int, day: int)

  datatype TimeOfDay = TimeOfDay(hour: int, minute: int, second: int)

  predicate IsLeapYear(y: int) {
    y % 4 == 0 && (y % 100 != 0 || y % 400 == 0)
  }

  function DaysInYear(y: int): nat {
    if IsLeapYear(y) then 366 else 365
  }

  function DaysInMonth(y: int, m: int): nat
    requires 1 <= m <= 12
  {
    if m == 2 then (if IsLeapYear(y) then 29 else 28)
    else if m == 4 || m == 6 || m == 9 || m == 11 then 30
    else 31
  }

  predicate ValidDate(d: Date) {
    1 <= d.month <= 12 && 1 <= d.day <= DaysInMonth(d.year, d.month)
  }

  predicate ValidTime(t: TimeOfDay) {
    0 <= t.hour < 24 && 0 <= t.minute < 60 && 0 <= t.second < 60
  }

  /** Seconds since midnight. */
  function Seconds(t: TimeOfDay): int {
    t.hour * 3600 + t.minute * 60 + t.second
  }

  /** Days from 1 January 1970 to 1 January of year `y` (negative before 1970). */
  function YearStart(y: int): int
    decreases if y >= 1970 then y - 1970 else 1970 - y
  {
    if y == 1970 then 0
    else if y > 1970 then YearStart(y - 1) + DaysInYear(y - 1)
    else YearStart(y + 1) - DaysInYear(y)
  }

  lemma YearStartStep(y: int)
    ensures YearStart(y + 1) == YearStart(y) + DaysInYear(y)
  {
  }

  /** Days of year `y` before the first of month `m` (`m == 13` gives the whole year). */
  function DaysBeforeMonth(y: int, m: int): (n: nat)
    requires 1 <= m <= 13
  {
    [0, 31, 59, 90, 120, 151, 181, 212, 243, 273, 304, 334, 365][m - 1]
      + (if m > 2 && IsLeapYear(y) then 1 else 0)
  }

  lemma MonthStep(y: int, m: int)
    requires 1 <= m <= 12
    ensures DaysBeforeMonth(y, m + 1) == DaysBeforeMonth(y, m) + DaysInMonth(y, m)
    ensures DaysBeforeMonth(y, 13) == DaysInYear(y)
  {
  }

  /** The epoch day of a date: days since 1 January 1970. */
  function DayNumber(d: Date): int
    requires 1 <= d.month <= 12
  {
    YearStart(d.year) + DaysBeforeMonth(d.year, d.month) + d.day - 1
  }

  /** The year holding day `n`, searched upwards from year `y`. */
  function YearUp(n: int, y: int): (r: int)
    requires YearStart(y) <= n
    ensures YearStart(r) <= n < YearStart(r) + DaysInYear(r)
    decreases n - YearStart(y)
  {
    YearStartStep(y);
    if n >= YearStart(y) + DaysInYear(y) then YearUp(n, y + 1) else y
  }

  /** The year holding day `n`, searched downwards from year `y`. */
  function YearDown(n: int, y: int): (r: int)
    requires n < YearStart(y) + DaysInYear(y)
    ensures YearStart(r) <= n < YearStart(r) + DaysInYear(r)
    decreases YearStart(y) - n
  {
    YearStartStep(y - 1);
    if n < YearStart(y) then YearDown(n, y - 1) else y
  }

  /** The month of year `y` holding day-of-year `r`, searched upwards from month `m`. */
  function MonthOf(y: int, r: int, m: int): (k: int)
    requires 1 <= m <= 12 && DaysBeforeMonth(y, m) <= r < DaysInYear(y)
    ensures m <= k <= 12 && DaysBeforeMonth(y, k) <= r < DaysBeforeMonth(y, k + 1)
    decreases 12 - m
  {
    MonthStep(y, m);
    if r >= DaysBeforeMonth(y, m + 1) then MonthOf(y, r, m + 1) else m
  }

  /** The calendar date of epoch day `n`. */
  function DateOfDay(n: int): (d: Date)
    ensures ValidDate(d)
    ensures DayNumber(d) == n
  {
    var y := if n >= 0 then YearUp(n, 1970) else YearDown(n, 1970);
    var r := n - YearStart(y);
    var m := MonthOf(y, r, 1);
    MonthStep(y, m);
    Date(y, m, r - DaysBeforeMonth(y, m) + 1)
  }

  /** Year starts grow strictly: a later year starts after an earlier one ends. */
  lemma {:induction false} YearStartMonotone(y1: int, y2: int)
    requires y1 < y2
    ensures YearStart(y1) + DaysInYear(y1) <= YearStart(y2)
    decreases y2 - y1
  {
    YearStartStep(y1);
    if y1 + 1 < y2 {
      YearStartMonotone(y1 + 1, y2);
    }
  }

  lemma {:induction false} MonthMonotone(y: int, m1: int, m2: int)
    requires 1 <= m1 < m2 <= 12
    ensures DaysBeforeMonth(y, m1 + 1) <= DaysBeforeMonth(y, m2)
    decreases m2 - m1
  {
    if m1 + 1 < m2 {
      MonthStep(y, m1 + 1);
      MonthMonotone(y, m1 + 1, m2);
    }
  }

  /** Distinct valid dates have distinct epoch days. */
  lemma DayNumberInjective(d1: Date, d2: Date)
    requires ValidDate(d1) && ValidDate(d2)
    requires DayNumber(d1) == DayNumber(d2)
    ensures d1 == d2
  {
    MonthStep(d1.year, d1.month);
    MonthStep(d2.year, d2.month);
    if d1.year < d2.year {
      YearStartMonotone(d1.year, d2.year);
    } else if d2.year < d1.year {
      YearStartMonotone(d2.year, d1.year);
    }
    assert d1.year == d2.year;
    if d1.month < d2.month {
      MonthMonotone(d1.year, d1.month, d2.month);
    } else if d2.month < d1.month {
      MonthMonotone(d1.year, d2.month, d1.month);
    }
  }

  /** Every valid date is recovered from its epoch day. */
  lemma DateOfDayNumber(d: Date)
    requires ValidDate(d)
    ensures DateOfDay(DayNumber(d)) == d
  {
    DayNumberInjective(DateOfDay(DayNumber(d)), d);
  }

  /** The date part of `toISOString()`: `YYYY-MM-DD`, with a signed six-digit year
      outside 0000..9999. */
  function FormatDate(d: Date): string
    requires ValidDate(d)
  {
    if 0 <= d.year <= 9999 then IsoDateText(d.year, d.month, d.day)
    else
      var sign := if d.year < 0 then "-" else "+";
      sign + Pad(Abs(d.year), 6) + "-" + Pad(d.month, 2) + "-" + Pad(d.day, 2)
  }

  /** `YYYY-MM-DD` from its three numbers, zero-padded. */
  function IsoDateText(y: nat, m: nat, d: nat): (r: string)
    ensures |r| == 10
  {
    Pad(y, 4) + "-" + Pad(m, 2) + "-" + Pad(d, 2)
  }

  /** The time part of `toTimeString()`: `HH:MM:SS`. */
  function FormatTime(t: TimeOfDay): (r: string)
    requires ValidTime(t)
    ensures |r| == 8
  {
    Pad(t.hour, 2) + ":" + Pad(t.minute, 2) + ":" + Pad(t.second, 2)
  }
}

=== FILE: employees.dfy ===
/** The Employee model, the directory lookup by `mapped_id`, and the two ways the
    controller composes an employee's full name. */
module Employees {
  import opened Options
  import opened JsText

  /** An `employees` row. `employeeId` is the string key timesheets refer to;
      `mappedId` is the attendance device's integer code used to find the row. */
  datatype Employee = Employee(
    id: int,
    employeeId: string,
    firstName: string,
    middleName: Option<string>,
    lastName: string,
    mappedId: Option<int>)

  /** The column lengths of the table: STRING(50) and STRING(100). */
  predicate ValidEmployee(e: Employee) {
    && |e.employeeId| <= 50
    && |e.firstName| <= 100
    && (e.middleName.Some? ==> |e.middleName.value| <= 100)
    && |e.lastName| <= 100
  }

  /** The employees table, in storage order. */
  type Directory = seq<Employee>

  /** The table's constraints: the primary key `id`, the unique `employee_id`, and
      the unique (but nullable) `mapped_id`. */
  predicate WellFormed(dir: Directory) {
    && (forall k :: 0 <= k < |dir| ==> ValidEmployee(dir[k]))
    && (forall j, k :: 0 <= j < k < |dir| ==> dir[j].id != dir[k].id)
    && (forall j, k :: 0 <= j < k < |dir| ==> dir[j].employeeId != dir[k].employeeId)
    && (forall j, k :: 0 <= j < k < |dir| && dir[j].mappedId.Some? ==> dir[j].mappedId != dir[k].mappedId)
  }

  /** `Employee.findOne({ where: { mapped_id } })`: the first employee whose
      `mapped_id` equals `id`, or none. */
  function FindByMappedId(dir: Directory, id: int): (r: Option<Employee>)
    ensures r.Some? ==> r.value in dir && r.value.mappedId == Some(id)
    ensures r.None? <==> forall k :: 0 <= k < |dir| ==> dir[k].mappedId != Some(id)
  {
    if dir == [] then None
    else if dir[0].mappedId == Some(id) then Some(dir[0])
    else FindByMappedId(dir[1..], id)
  }

  /** Because `mapped_id` is unique, the lookup is a partial function: the employee
      it returns is the only one carrying that code. */
  lemma FindByMappedIdUnique(dir: Directory, id: int, k: int)
    requires WellFormed(dir)
    requires 0 <= k < |dir| && dir[k].mappedId == Some(id)
    ensures FindByMappedId(dir, id) == Some(dir[k])
  {
    var r := FindByMappedId(dir, id);
    var j :| 0 <= j < |dir| && dir[j] == r.value;
  }

  /** `employee.middle_name || ''`: a null or empty middle name counts as none. */
  function MiddleOrEmpty(e: Employee): string {
    if e.middleName.Some? then e.middleName.value else ""
  }

  /** The name an upload reports: first, middle (or nothing) and last name joined
      by single spaces, then trimmed at the two ends only. */
  function OutcomeName(e: Employee): (r: string)
    ensures Trimmed(r)
  {
    Trim(e.firstName + " " + MiddleOrEmpty(e) + " " + e.lastName)
  }

  /** The name the timesheet listings report: the middle name and its space are
      inserted only when there is a (non-empty) middle name. */
  function ListingName(e: Employee): (r: string)
    ensures Trimmed(r)
  {
    var middle := if e.middleName.Some? && e.middleName.value != "" then e.middleName.value + " " else "";
    Trim(e.firstName + " " + middle + e.lastName)
  }

  /** Name parts that are non-empty and carry no white space at their ends. */
  predicate CleanPart(s: string) {
    s != [] && Trimmed(s)
  }

  predicate HasMiddle(e: Employee) {
    e.middleName.Some? && e.middleName.value != ""
  }

  /** With a clean middle name the two formats agree on `first middle last`. */
  lemma NamesWithMiddle(e: Employee)
    requires CleanPart(e.firstName) && CleanPart(e.lastName)
    requires HasMiddle(e) && CleanPart(e.middleName.value)
    ensures OutcomeName(e) == e.firstName + " " + e.middleName.value + " " + e.lastName
    ensures ListingName(e) == OutcomeName(e)
  {
    var s := e.firstName + " " + e.middleName.value + " " + e.lastName;
    assert s[0] == e.firstName[0] && s[|s| - 1] == e.lastName[|e.lastName| - 1];
    TrimTrimmed(s);
    assert e.firstName + " " + (e.middleName.value + " ") + e.lastName == s;
  }

  /** Without a middle name the upload format keeps a double inner space, while
      the listing format has a single one, so the two disagree. */
  lemma NamesWithoutMiddle(e: Employee)
    requires CleanPart(e.firstName) && CleanPart(e.lastName)
    requires !HasMiddle(e)
    ensures OutcomeName(e) == e.firstName + "  " + e.lastName
    ensures ListingName(e) == e.firstName + " " + e.lastName
    ensures OutcomeName(e) != ListingName(e)
  {
    var s := e.firstName + " " + "" + " " + e.lastName;
    assert s == e.firstName + "  " + e.lastName;
    assert s[0] == e.firstName[0] && s[|s| - 1] == e.lastName[|e.lastName| - 1];
    TrimTrimmed(s);
    var t := e.firstName + " " + "" + e.lastName;
    assert t == e.firstName + " " + e.lastName;
    assert t[0] == e.firstName[0] && t[|t| - 1] == e.lastName[|e.lastName| - 1];
    TrimTrimmed(t);
    assert |s| != |t|;
  }
}

=== FILE: helpers.dfy ===
/** The controller's cell helpers: `parseDate`, `parseTime` and
    `calculateTotalHours`, applied to decoded spreadsheet cells. */
module Helpers {
  import opened Options
  import opened JsText
  import opened JsNumbers
  import opened Calendar

  /** A decoded spreadsheet cell: missing, a string, or a number. */
  datatype Cell = Absent | Text(text: string) | Num(number: Decimal)

  /** A decoded spreadsheet row: column label to cell. */
  type RawRow = map<string, Cell>

  /** `row[column]`, which is `undefined` for a column the row does not have. */
  function Get(row: RawRow, column: string): Cell {
    if column in row then row[column] else Absent
  }

  /** A JavaScript Date's time value may not exceed 8.64e15 ms in magnitude. */
  const MaxTimeValue: int := 8_640_000_000_000_000

  /** The UTC date of `new Date(n)` for a number `n` of milliseconds since the
      epoch, or `None` when the time value is out of range (an Invalid Date). */
  function DateOfTimeValue(n: Decimal): (r: Option<Date>)
    ensures r.None? <==> Abs(Truncate(n)) > MaxTimeValue || (Abs(Truncate(n)) == MaxTimeValue && !IsInteger(n))
    ensures r.Some? ==> ValidDate(r.value) && DayNumber(r.value) == Truncate(n) / 86_400_000
  {
    var t := Truncate(n);
    if Abs(t) > MaxTimeValue || (Abs(t) == MaxTimeValue && !IsInteger(n)) then None
    else Some(DateOfDay(t / 86_400_000))
  }

  /** An ISO date-only string `YYYY-MM-DD`. As JavaScript's engine does, months
      must lie in 1..12 and days in 1..31, and a day past the month's end rolls
      over into the next month. Other strings are not accepted. */
  function ParseIsoDate(s: string): (r: Option<Date>)
    ensures r.Some? ==> ValidDate(r.value)
  {
    if |s| == 10 && s[4] == '-' && s[7] == '-'
       && AllDigits(s[..4]) && AllDigits(s[5..7]) && AllDigits(s[8..])
    then
      var y := DigitsValue(s[..4]);
      var m := DigitsValue(s[5..7]);
      var d := DigitsValue(s[8..]);
      if 1 <= m <= 12 && 1 <= d <= 31 then Some(DateOfDay(DayNumber(Date(y, m, 1)) + d - 1))
      else None
    else None
  }

  /** `parseDate(dateStr)`: a falsy cell gives null; otherwise `new Date(dateStr)`,
      null when invalid, else its UTC calendar date. */
  function ParseDate(c: Cell): (r: Option<Date>)
    ensures r.Some? ==> ValidDate(r.value)
    ensures c.Absent? || c == Text("") || (c.Num? && IsZero(c.number)) ==> r.None?
  {
    match c
    case Absent => None
    case Text(s) => if s == "" then None else ParseIsoDate(s)
    case Num(n) => if IsZero(n) then None else DateOfTimeValue(n)
  }

  function Clock(h: nat, m: nat, s: nat): (r: Option<TimeOfDay>)
    ensures r.Some? ==> ValidTime(r.value)
  {
    if h < 24 && m < 60 && s < 60 then Some(TimeOfDay(h, m, s)) else None
  }

  /** `new Date('1970-01-01 ' + s)` read back as a local time of day: `H:MM` or
      `H:MM:SS` (one or two hour digits), with white space around it ignored. */
  function ParseTimeText(s: string): (r: Option<TimeOfDay>)
    ensures r.Some? ==> ValidTime(r.value)
    ensures s == "" ==> r.None?
  {
    if s == "" then None
    else
      var t := Trim(s);
      var c := IndexOf(t, ':');
      var h := t[..c];
      if c == |t| || !(1 <= |h| <= 2 && AllDigits(h)) then None
      else
        var rest := t[c + 1..];
        if |rest| == 2 && AllDigits(rest) then Clock(DigitsValue(h), DigitsValue(rest), 0)
        else if |rest| == 5 && rest[2] == ':' && AllDigits(rest[..2]) && AllDigits(rest[3..]) then
          Clock(DigitsValue(h), DigitsValue(rest[..2]), DigitsValue(rest[3..]))
        else None
  }

  /** `parseTime(timeStr)`: a falsy cell gives null; a number is first turned into
      its decimal string by the template literal. */
  function ParseTime(c: Cell): (r: Option<TimeOfDay>)
    ensures r.Some? ==> ValidTime(r.value)
  {
    match c
    case Absent => None
    case Text(s) => ParseTimeText(s)
    case Num(n) => if IsZero(n) then None else ParseTimeText(NumberText(n))
  }

  /** A `total_hours` value: null, JavaScript's NaN, or a whole number of
      hundredths of an hour. */
  datatype Hours = Null | NaN | Hundredths(value: int)

  /** `parseFloat((seconds / 3600).toFixed(2))`, as hundredths of an hour: the
      nearest hundredth, a tie going away from zero. */
  function RoundedHundredths(seconds: int): (c: int)
    ensures seconds >= 0 ==> -18 <= seconds - 36 * c < 18
    ensures seconds < 0 ==> -18 < seconds - 36 * c <= 18
  {
    if seconds >= 0 then (seconds + 18) / 36 else -((18 - seconds) / 36)
  }

  /** `calculateTotalHours(checkIn, checkOut)` on the stored time strings: null when
      either is null or empty; otherwise both are parsed again and the elapsed time
      is rounded to hundredths of an hour, negative when check-out is earlier. A
      string that fails to parse gives NaN. */
  function CalculateTotalHours(checkIn: Option<string>, checkOut: Option<string>): (r: Hours)
    ensures checkIn.None? || checkOut.None? || checkIn == Some("") || checkOut == Some("") ==> r == Null
  {
    if checkIn.None? || checkOut.None? || checkIn.value == "" || checkOut.value == "" then Null
    else
      var i := ParseTimeText(checkIn.value);
      var o := ParseTimeText(checkOut.value);
      if i.Some? && o.Some? then Hundredths(RoundedHundredths(Seconds(o.value) - Seconds(i.value)))
      else NaN
  }

  /** The string `parseTime` hands on: `HH:MM:SS`, or null. */
  function TimeString(t: Option<TimeOfDay>): (r: Option<string>)
    requires t.Some? ==> ValidTime(t.value)
  {
    match t
    case None => None
    case Some(v) => Some(FormatTime(v))
  }

  /** A `total_hours` value the DECIMAL(5,2) column can hold: null, or fewer than
      1000 hours (two fractional digits are implied by counting hundredths). */
  predicate StorableHours(h: Hours) {
    h.Null? || (h.Hundredths? && -100_000 < h.value < 100_000)
  }

  lemma PadDigits(n: nat, w: nat)
    requires n < Pow10(w)
    ensures DigitsValue(Pad(n, w)) == n
  {
  }

  lemma DigitsNotSpace(s: string)
    requires AllDigits(s)
    ensures forall i :: 0 <= i < |s| ==> !IsSpace(s[i])
  {
  }

  lemma ClockTextShape(hh: string, mm: string, ss: string)
    requires |hh| == 2 && |mm| == 2 && |ss| == 2
    requires AllDigits(hh) && AllDigits(mm) && AllDigits(ss)
    ensures var s := hh + ":" + mm + ":" + ss;
      && Trim(s) == s && IndexOf(s, ':') == 2 && s[..2] == hh && s[3..] == mm + ":" + ss
  {
    var s := hh + ":" + mm + ":" + ss;
    DigitsNotSpace(hh);
    DigitsNotSpace(ss);
    assert s[0] == hh[0] && s[7] == ss[1];
    TrimTrimmed(s);
    assert s[2] == ':' && s[0] != ':' && s[1] != ':';
    assert s[..2] == hh;
  }

  lemma MinuteSecondShape(mm: string, ss: string)
    requires |mm| == 2 && |ss| == 2
    ensures var rest := mm + ":" + ss;
      && |rest| == 5 && rest[2] == ':' && rest[..2] == mm && rest[3..] == ss
  {
    var rest := mm + ":" + ss;
    assert rest[..2] == mm;
    assert rest[3..] == ss;
  }

  /** A string `HH:MM:SS` of two-digit fields is read field by field. */
  lemma ParseClockText(hh: string, mm: string, ss: string)
    requires |hh| == 2 && |mm| == 2 && |ss| == 2
    requires AllDigits(hh) && AllDigits(mm) && AllDigits(ss)
    ensures ParseTimeText(hh + ":" + mm + ":" + ss) == Clock(DigitsValue(hh), DigitsValue(mm), DigitsValue(ss))
  {
    ClockTextShape(hh, mm, ss);
    MinuteSecondShape(mm, ss);
  }

  /** A string `H:MM` or `HH:MM` is read as that hour and minute, with no seconds. */
  lemma HourMinuteText(hh: string, mm: string)
    requires 1 <= |hh| <= 2 && |mm| == 2
    requires AllDigits(hh) && AllDigits(mm)
    ensures ParseTimeText(hh + ":" + mm) == Clock(DigitsValue(hh), DigitsValue(mm), 0)
  {
    var s := hh + ":" + mm;
    DigitsNotSpace(hh);
    DigitsNotSpace(mm);
    assert s[0] == hh[0] && s[|s| - 1] == mm[1];
    TrimTrimmed(s);
    assert s[|hh|] == ':' && forall j :: 0 <= j < |hh| ==> s[j] == hh[j];
    assert IndexOf(s, ':') == |hh|;
    assert s[..|hh|] == hh;
    assert s[|hh| + 1..] == mm;
  }

  /** A normalised time string parses back to the same time of day, so
      `calculateTotalHours` sees exactly the times `parseTime` produced. */
  lemma TimeRoundTrip(t: TimeOfDay)
    requires ValidTime(t)
    ensures ParseTimeText(FormatTime(t)) == Some(t)
  {
    TwoDigits(t.hour);
    TwoDigits(t.minute);
    TwoDigits(t.second);
    ParseClockText(Pad(t.hour, 2), Pad(t.minute, 2), Pad(t.second, 2));
  }

  /** A number below 100 written on two digits reads back as itself. */
  lemma TwoDigits(n: nat)
    requires n < 100
    ensures DigitsValue(Pad(n, 2)) == n
  {
    assert Pow10(2) == 100;
  }

  /** `YYYY-MM-DD` is read field by field. */
  lemma ParseIsoDateText(y: nat, m: nat, day: nat)
    requires y < 10000 && m < 100 && day < 100
    ensures 1 <= m <= 12 && 1 <= day <= 31 ==>
      ParseIsoDate(IsoDateText(y, m, day)) == Some(DateOfDay(DayNumber(Date(y, m, 1)) + day - 1))
    ensures !(1 <= m <= 12 && 1 <= day <= 31) ==> ParseIsoDate(IsoDateText(y, m, day)) == None
  {
    var s := IsoDateText(y, m, day);
    assert Pow10(2) == 100;
    assert Pow10(4) == 10000;
    PadDigits(y, 4);
    PadDigits(m, 2);
    PadDigits(day, 2);
    assert s[..4] == Pad(y, 4);
    assert s[5..7] == Pad(m, 2);
    assert s[8..] == Pad(day, 2);
    assert s[4] == '-' && s[7] == '-';
    assert AllDigits(s[..4]) && AllDigits(s[5..7]) && AllDigits(s[8..]);
    assert DigitsValue(s[..4]) == y && DigitsValue(s[5..7]) == m && DigitsValue(s[8..]) == day;
    IsoDateShape(s);
  }

  lemma IsoDateShape(s: string)
    requires |s| == 10 && s[4] == '-' && s[7] == '-'
    requires AllDigits(s[..4]) && AllDigits(s[5..7]) && AllDigits(s[8..])
    ensures var y, m, d := DigitsValue(s[..4]), DigitsValue(s[5..7]), DigitsValue(s[8..]);
      ParseIsoDate(s) == if 1 <= m <= 12 && 1 <= d <= 31 then Some(DateOfDay(DayNumber(Date(y, m, 1)) + d - 1)) else None
  {
  }

  /** A stored date string parses back to the same date. */
  lemma DateRoundTrip(d: Date)
    requires ValidDate(d) && 0 <= d.year <= 9999
    ensures ParseDate(Text(FormatDate(d))) == Some(d)
  {
    var s := IsoDateText(d.year, d.month, d.day);
    assert FormatDate(d) == s && s != "";
    IsoDateOfDate(d);
  }

  lemma IsoDateOfDate(d: Date)
    requires ValidDate(d) && 0 <= d.year <= 9999
    ensures ParseIsoDate(IsoDateText(d.year, d.month, d.day)) == Some(d)
  {
    assert 1 <= d.month <= 12 && 1 <= d.day <= 31;
    ParseIsoDateText(d.year, d.month, d.day);
    DayOfMonth(d);
    DateOfDayNumber(d);
  }

  /** A date is its month's first day plus its day of the month, less one. */
  lemma DayOfMonth(d: Date)
    requires ValidDate(d)
    ensures DayNumber(Date(d.year, d.month, 1)) + d.day - 1 == DayNumber(d)
  {
  }

  /** A day past the end of its month rolls over into the next month. */
  lemma IsoDateRollover(y: nat, m: nat, day: nat)
    requires y <= 9999 && 1 <= m <= 11 && DaysInMonth(y, m) < day <= 31
    ensures ParseIsoDate(IsoDateText(y, m, day)) == Some(Date(y, m + 1, day - DaysInMonth(y, m)))
  {
    ParseIsoDateText(y, m, day);
    var next := Date(y, m + 1, day - DaysInMonth(y, m));
    MonthStep(y, m);
    assert DayNumber(Date(y, m, 1)) + day - 1 == DayNumber(next);
    DateOfDayNumber(next);
  }

  /** A string without `:` is never a time of day. */
  lemma NoColonNoTime(s: string)
    requires ':' !in s
    ensures ParseTimeText(s) == None
  {
    if s != "" {
      var t := Trim(s);
      var a := LeadingSpaces(s);
      assert forall i :: 0 <= i < |t| ==> t[i] == s[a + i];
      assert IndexOf(t, ':') == |t|;
    }
  }

  /** A number cell never gives a time: its decimal string has no `:`. */
  lemma NumberIsNoTime(n: Decimal)
    ensures ParseTime(Num(n)) == None
  {
    if !IsZero(n) {
      NoColonNoTime(NumberText(n));
    }
  }

  /** Within one day, the rounded hours fit DECIMAL(5,2) and keep the sign of the
      elapsed time. */
  lemma HundredthsWithinDay(seconds: int)
    requires -86400 < seconds < 86400
    ensures -2400 <= RoundedHundredths(seconds) <= 2400
    ensures seconds < 0 ==> RoundedHundredths(seconds) <= 0
    ensures seconds > 0 ==> RoundedHundredths(seconds) >= 0
  {
  }

  /** For the times `parseTime` produces, `calculateTotalHours` is never NaN: it is
      the signed elapsed time in hundredths of an hour, within one day, and the
      DECIMAL(5,2) column can hold it. */
  lemma TotalHoursOfTimes(i: TimeOfDay, o: TimeOfDay)
    requires ValidTime(i) && ValidTime(o)
    ensures CalculateTotalHours(Some(FormatTime(i)), Some(FormatTime(o)))
         == Hundredths(RoundedHundredths(Seconds(o) - Seconds(i)))
    ensures StorableHours(Hundredths(RoundedHundredths(Seconds(o) - Seconds(i))))
    ensures Seconds(o) < Seconds(i) ==> RoundedHundredths(Seconds(o) - Seconds(i)) <= 0
    ensures Seconds(o) > Seconds(i) ==> RoundedHundredths(Seconds(o) - Seconds(i)) >= 0
  {
    TimeRoundTrip(i);
    TimeRoundTrip(o);
    TotalHoursOfParsed(FormatTime(i), FormatTime(o), i, o);
    HundredthsWithinDay(Seconds(o) - Seconds(i));
  }

  lemma TotalHoursOfParsed(a: string, b: string, i: TimeOfDay, o: TimeOfDay)
    requires ParseTimeText(a) == Some(i) && ParseTimeText(b) == Some(o)
    ensures CalculateTotalHours(Some(a), Some(b)) == Hundredths(RoundedHundredths(Seconds(o) - Seconds(i)))
  {
  }

  /** Hours for an optional check-out: null without one, otherwise as above. The
      values the row handlers store are always storable. */
  lemma TotalHoursStorable(i: Option<TimeOfDay>, o: Option<TimeOfDay>)
    requires i.Some? ==> ValidTime(i.value)
    requires o.Some? ==> ValidTime(o.value)
    ensures StorableHours(CalculateTotalHours(TimeString(i), TimeString(o)))
    ensures i.None? || o.None? <==> CalculateTotalHours(TimeString(i), TimeString(o)) == Null
  {
    if i.Some? && o.Some? {
      TotalHoursOfTimes(i.value, o.value);
    }
  }

  /** 08:00:00 to 17:30:00 is 9.50 hours. */
  lemma NineAndAHalfHours()
    ensures CalculateTotalHours(Some("08:00:00"), Some("17:30:00")) == Hundredths(950)
  {
    assert FormatTime(TimeOfDay(8, 0, 0)) == "08:00:00";
    assert FormatTime(TimeOfDay(17, 30, 0)) == "17:30:00";
    TotalHoursOfTimes(TimeOfDay(8, 0, 0), TimeOfDay(17, 30, 0));
  }

  /** A night shift, 22:00:00 to 06:00:00, is -16.00 hours: nothing wraps past
      midnight and nothing is clamped. */
  lemma NightShiftIsNegative()
    ensures CalculateTotalHours(Some("22:00:00"), Some("06:00:00")) == Hundredths(-1600)
  {
    assert FormatTime(TimeOfDay(22, 0, 0)) == "22:00:00";
    assert FormatTime(TimeOfDay(6, 0, 0)) == "06:00:00";
    TotalHoursOfTimes(TimeOfDay(22, 0, 0), TimeOfDay(6, 0, 0));
  }
}

=== FILE: jsnumbers.dfy ===
/** The JavaScript number conversions the row handlers apply to spreadsheet cells:
    `Number(x)`, `Number.isInteger`, `parseInt(x)` and `String(n)`.
    A spreadsheet number is held exactly as a decimal `mantissa · 10^exponent`. */
module JsNumbers {
  import opened Options
  import opened Sequences
  import opened JsText

  /** A finite JavaScript number, mantissa · 10^exponent. */
  datatype Decimal = Decimal(mantissa: int, exponent: int)

  /** The falsy number (0 and -0). */
  predicate IsZero(d: Decimal) {
    d.mantissa == 0
  }

  /** `Number.isInteger`. */
  predicate IsInteger(d: Decimal) {
    d.exponent >= 0 || d.mantissa % Pow10(-d.exponent) == 0
  }

  /** Integer division of a magnitude, rounded down. */
  function Quotient(a: nat, p: nat): nat
    requires p >= 1
  {
    a / p
  }

  /** `q` is the quotient of `a` by `p`, rounded down. */
  predicate Brackets(a: int, q: int, p: int) {
    q * p <= a < (q + 1) * p
  }

  lemma QuotientBrackets(a: nat, p: nat)
    requires p >= 1
    ensures Brackets(a, Quotient(a, p), p)
  {
    var q := a / p;
    assert a == q * p + a % p;
    assert (q + 1) * p == q * p + p;
  }

  /** `Math.trunc`: the integer part, rounded toward zero. */
  function Truncate(d: Decimal): int {
    if d.exponent >= 0 then d.mantissa * Pow10(d.exponent)
    else
      var q: int := Quotient(Abs(d.mantissa), Pow10(-d.exponent));
      if d.mantissa >= 0 then q else -q
  }

  /** Truncation keeps the sign, drops less than one unit of magnitude, and is exact
      on integers. */
  lemma TruncateMeaning(d: Decimal)
    ensures d.exponent < 0 ==> Brackets(Abs(d.mantissa), Abs(Truncate(d)), Pow10(-d.exponent))
    ensures Truncate(d) < 0 ==> d.mantissa < 0
    ensures Truncate(d) > 0 ==> d.mantissa > 0
    ensures IsInteger(d) && d.exponent < 0 ==> Truncate(d) * Pow10(-d.exponent) == d.mantissa
  {
    if d.exponent >= 0 {
      ScaleSign(d.mantissa, Pow10(d.exponent));
    } else {
      var p := Pow10(-d.exponent);
      QuotientBrackets(Abs(d.mantissa), p);
      if IsInteger(d) {
        ExactQuotient(d.mantissa, p);
      }
    }
  }

  lemma ScaleSign(m: int, p: int)
    requires p >= 1
    ensures m > 0 ==> m * p > 0
    ensures m < 0 ==> m * p < 0
    ensures m == 0 ==> m * p == 0
  {
    if m < 0 {
      assert m * p == -((-m) * p);
    }
  }

  lemma ExactQuotient(m: int, p: nat)
    requires p >= 1 && m % p == 0
    ensures (if m >= 0 then Quotient(Abs(m), p) as int else -(Quotient(Abs(m), p) as int)) * p == m
  {
    var a := Abs(m);
    assert m == (m / p) * p;
    if m < 0 {
      assert a == (-(m / p)) * p;
      ModUnique(a, p, -(m / p), 0);
    } else {
      ModUnique(a, p, m / p, 0);
    }
    assert a == (a / p) * p + a % p;
  }

  /** The value of a character as a digit in bases up to 36 (`0-9`, `a-z`, `A-Z`). */
  function DigitValueIn(c: char): Option<nat> {
    if '0' <= c <= '9' then Some((c as int) - ('0' as int))
    else if 'a' <= c <= 'z' then Some((c as int) - ('a' as int) + 10)
    else if 'A' <= c <= 'Z' then Some((c as int) - ('A' as int) + 10)
    else None
  }

  predicate IsRadixDigit(c: char, radix: nat) {
    DigitValueIn(c).Some? && DigitValueIn(c).value < radix
  }

  predicate AllRadixDigits(s: string, radix: nat) {
    forall i :: 0 <= i < |s| ==> IsRadixDigit(s[i], radix)
  }

  function RadixValue(s: string, radix: nat): nat
    requires AllRadixDigits(s, radix)
  {
    if s == [] then 0 else radix * RadixValue(s[..|s| - 1], radix) + DigitValueIn(s[|s| - 1]).value
  }

  /** Length of the longest prefix of `s` made of digits of the given radix. */
  function RadixPrefixLength(s: string, radix: nat): (n: nat)
    ensures n <= |s|
    ensures AllRadixDigits(s[..n], radix)
    ensures n < |s| ==> !IsRadixDigit(s[n], radix)
  {
    if s == [] || !IsRadixDigit(s[0], radix) then 0
    else
      var n := 1 + RadixPrefixLength(s[1..], radix);
      assert forall i :: 1 <= i < n ==> s[..n][i] == s[1..][..n - 1][i - 1];
      n
  }

  /** A non-empty run of decimal digits with an optional sign (an exponent part). */
  function SignedDigits(s: string): Option<int> {
    if |s| > 0 && (s[0] == '+' || s[0] == '-') then
      if |s| > 1 && AllDigits(s[1..]) then
        var v: int := DigitsValue(s[1..]);
        Some(if s[0] == '-' then -v else v)
      else None
    else if |s| > 0 && AllDigits(s) then Some(DigitsValue(s))
    else None
  }

  /** An unsigned StrUnsignedDecimalLiteral: digits with an optional fraction and an
      optional exponent. `Infinity` also gives `None` here: no caller tells it
      apart from NaN, since neither is an integer. */
  function UnsignedDecimal(t: string): Option<Decimal> {
    var e := if IndexOf(t, 'e') < IndexOf(t, 'E') then IndexOf(t, 'e') else IndexOf(t, 'E');
    var mant := t[..e];
    var dot := IndexOf(mant, '.');
    var whole := mant[..dot];
    var frac := if dot < |mant| then mant[dot + 1..] else "";
    if !(AllDigits(whole) && AllDigits(frac) && |whole| + |frac| >= 1) then None
    else
      var scale := if e == |t| then Some(0) else SignedDigits(t[e + 1..]);
      match scale
      case None => None
      case Some(k) => Some(Decimal(DigitsValue(whole + frac), k - |frac|))
  }

  /** `Number(s)` for a string: white space around the literal is ignored, the empty
      string is 0, otherwise the trimmed text must be a numeric literal. `None`
      stands for NaN. */
  function NumberOf(s: string): (r: Option<Decimal>)
    ensures AllSpace(s) ==> r == Some(Decimal(0, 0))
    ensures s != "" && AllDigits(s) ==> r == Some(Decimal(DigitsValue(s), 0))
  {
    DigitsAreTrimmed(s);
    var t := Trim(s);
    if t == [] then Some(Decimal(0, 0))
    else
      LiteralOfDigits(s);
      NumericLiteral(t)
  }

  /** A non-empty trimmed StrNumericLiteral: `0x`/`0o`/`0b` prefixes give unsigned
      integers, otherwise a signed decimal literal. */
  function NumericLiteral(t: string): Option<Decimal>
    requires t != []
  {
    if |t| >= 2 && t[0] == '0' && t[1] in "xXoObB" then
      var radix := if t[1] in "xX" then 16 else if t[1] in "oO" then 8 else 2;
      if |t| > 2 && AllRadixDigits(t[2..], radix) then Some(Decimal(RadixValue(t[2..], radix), 0)) else None
    else if t[0] == '-' then
      match UnsignedDecimal(t[1..])
      case None => None
      case Some(d) => Some(Decimal(-d.mantissa, d.exponent))
    else if t[0] == '+' then UnsignedDecimal(t[1..])
    else UnsignedDecimal(t)
  }

  lemma LiteralOfDigits(s: string)
    ensures s != "" && AllDigits(s) ==> NumericLiteral(s) == Some(Decimal(DigitsValue(s), 0))
  {
    if s != "" && AllDigits(s) {
      UnsignedDecimalOfDigits(s);
    }
  }

  /** `parseInt(s)` with no radix: leading white space and one sign are skipped, a
      `0x`/`0X` prefix selects base 16, and the longest run of digits that follows is
      read; anything after it is ignored. `None` stands for NaN (no digits at all). */
  function ParseInt(s: string): (r: Option<int>)
    ensures AllSpace(s) ==> r.None?
    ensures s != "" && AllDigits(s) ==> r == Some(DigitsValue(s))
  {
    ParseIntCases(s);
    SignedInt(TrimStart(s))
  }

  /** Blank text leaves nothing after the white space, and a digit string is its
      own unsigned part. */
  lemma ParseIntCases(s: string)
    ensures AllSpace(s) ==> SignedInt(TrimStart(s)).None?
    ensures s != "" && AllDigits(s) ==> SignedInt(TrimStart(s)) == Some(DigitsValue(s))
  {
    if AllSpace(s) {
      assert LeadingSpaces(s) == |s|;
      assert TrimStart(s) == [];
    }
    if s != "" && AllDigits(s) {
      DigitsAreTrimmed(s);
      assert s + "" == s;
      UnsignedLeadingDigits(s, "");
      assert SignedInt(s) == UnsignedInt(s);
    }
  }

  /** `parseInt` after the leading white space: one optional sign, then the digits. */
  function SignedInt(t: string): Option<int> {
    if |t| > 0 && t[0] == '-' then Negate(UnsignedInt(t[1..]))
    else if |t| > 0 && t[0] == '+' then UnsignedInt(t[1..])
    else UnsignedInt(t)
  }

  function Negate(r: Option<int>): Option<int> {
    match r
    case None => None
    case Some(x) => Some(-x)
  }

  /** `parseInt` after the sign: a `0x`/`0X` prefix selects base 16, and the longest
      run of digits that follows is read. */
  function UnsignedInt(u: string): Option<int> {
    var hex := |u| >= 2 && u[0] == '0' && (u[1] == 'x' || u[1] == 'X');
    var radix := if hex then 16 else 10;
    var v := if hex then u[2..] else u;
    var n := RadixPrefixLength(v, radix);
    if n == 0 then None else Some(RadixValue(v[..n], radix))
  }

  /** A non-empty digit string has no white space to trim and is a decimal literal
      of its own value. */
  lemma DigitsAreTrimmed(s: string)
    ensures s != "" && AllDigits(s) ==> TrimStart(s) == s && Trim(s) == s
    ensures s != "" && AllDigits(s) ==> UnsignedDecimal(s) == Some(Decimal(DigitsValue(s), 0))
    ensures AllDigits(s) ==> AllRadixDigits(s, 10) && RadixValue(s, 10) == DigitsValue(s)
    ensures AllDigits(s) ==> RadixPrefixLength(s, 10) == |s|
  {
    if s != "" && AllDigits(s) {
      assert LeadingSpaces(s) == 0;
      TrimTrimmed(s);
      UnsignedDecimalOfDigits(s);
    }
    if AllDigits(s) {
      DecimalDigits(s);
    }
  }

  lemma UnsignedDecimalOfDigits(s: string)
    requires s != "" && AllDigits(s)
    ensures UnsignedDecimal(s) == Some(Decimal(DigitsValue(s), 0))
  {
    NoSuchChar(s, 'e');
    NoSuchChar(s, 'E');
    NoSuchChar(s, '.');
    var mant := s[..|s|];
    assert mant == s;
    assert mant[..|s|] == s;
    assert s + "" == s;
  }

  lemma NoSuchChar(s: string, c: char)
    requires AllDigits(s) && !IsDigit(c)
    ensures IndexOf(s, c) == |s|
  {
  }

  /** Decimal digits are base-10 digits of the same value. */
  lemma {:induction false} DecimalDigits(s: string)
    requires AllDigits(s)
    ensures AllRadixDigits(s, 10) && RadixValue(s, 10) == DigitsValue(s)
  {
    if s != [] {
      assert AllDigits(s[..|s| - 1]);
      DecimalDigits(s[..|s| - 1]);
    }
  }

  lemma PrefixLengthIs(s: string, k: nat, radix: nat)
    requires k <= |s|
    requires forall i :: 0 <= i < k ==> IsRadixDigit(s[i], radix)
    requires k < |s| ==> !IsRadixDigit(s[k], radix)
    ensures RadixPrefixLength(s, radix) == k
  {
  }

  /** `parseInt` reads a numeral and ignores whatever non-digit text follows it. */
  lemma ParseIntLeadingDigits(d: string, rest: string)
    requires d != "" && AllDigits(d)
    requires rest != "" ==> !IsRadixDigit(rest[0], 10)
    requires d == "0" && rest != "" ==> rest[0] != 'x' && rest[0] != 'X'
    ensures ParseInt(d + rest) == Some(DigitsValue(d))
  {
    var s := d + rest;
    assert LeadingSpaces(s) == 0;
    assert TrimStart(s) == s;
    assert s[0] == d[0];
    UnsignedLeadingDigits(d, rest);
  }

  /** The unsigned part of `parseInt` reads a numeral and stops at the first
      character that is not a digit. */
  lemma UnsignedLeadingDigits(d: string, rest: string)
    requires d != "" && AllDigits(d)
    requires rest != "" ==> !IsRadixDigit(rest[0], 10)
    requires d == "0" && rest != "" ==> rest[0] != 'x' && rest[0] != 'X'
    ensures UnsignedInt(d + rest) == Some(DigitsValue(d))
  {
    var u := d + rest;
    DecimalDigits(d);
    assert u[..|d|] == d;
    assert forall i :: 0 <= i < |d| ==> IsRadixDigit(u[i], 10);
    assert rest != "" ==> !IsRadixDigit(u[|d|], 10);
    PrefixLengthIs(u, |d|, 10);
    assert !(|u| >= 2 && u[0] == '0' && (u[1] == 'x' || u[1] == 'X'));
  }

  /** The numeral of an integer reads back as that integer with `Number`. */
  lemma NumberOfIntText(n: int)
    ensures NumberOf(IntText(n)) == Some(Decimal(n, 0))
  {
    if n < 0 {
      NumberOfNegative(NatText(-n), IntText(n));
    } else {
      assert IntText(n) == NatText(n);
    }
  }

  /** `Number` of a minus sign and a digit string is the negated digits. */
  lemma NumberOfNegative(u: string, t: string)
    requires u != "" && AllDigits(u) && t == "-" + u && Trimmed(t)
    ensures NumberOf(t) == Some(Decimal(-(DigitsValue(u) as int), 0))
  {
    TrimTrimmed(t);
    assert t[0] == '-' && t[1..] == u;
    UnsignedDecimalOfDigits(u);
    assert NumericLiteral(t) == Some(Decimal(-(DigitsValue(u) as int), 0));
  }

  /** The numeral of an integer reads back as that integer with `parseInt`. */
  lemma ParseIntOfIntText(n: int)
    ensures ParseInt(IntText(n)) == Some(n)
  {
    if n < 0 {
      ParseIntNegative(NatText(-n));
    } else {
      assert IntText(n) == NatText(n);
    }
  }

  /** `parseInt` of a minus sign and a numeral without leading zeros. */
  lemma ParseIntNegative(u: string)
    requires u != "" && AllDigits(u) && (|u| > 1 ==> u[0] != '0')
    ensures ParseInt("-" + u) == Some(-(DigitsValue(u) as int))
  {
    assert u + "" == u;
    ParseIntNegativeLeading(u, "");
  }

  /** `parseInt` of a minus sign and a numeral ignores whatever non-digit text
      follows the numeral. */
  lemma ParseIntNegativeLeading(d: string, rest: string)
    requires d != "" && AllDigits(d)
    requires rest != "" ==> !IsRadixDigit(rest[0], 10)
    requires d == "0" && rest != "" ==> rest[0] != 'x' && rest[0] != 'X'
    ensures ParseInt("-" + (d + rest)) == Some(-(DigitsValue(d) as int))
  {
    UnsignedLeadingDigits(d, rest);
    MinusSign(d + rest, DigitsValue(d));
  }

  /** A minus sign negates what the unsigned part reads. */
  lemma MinusSign(u: string, x: int)
    requires UnsignedInt(u) == Some(x)
    ensures ParseInt("-" + u) == Some(-x)
  {
    var s := "-" + u;
    assert !IsSpace(s[0]);
    assert LeadingSpaces(s) == 0;
    assert TrimStart(s) == s;
    assert s[1..] == u;
    assert SignedInt(s) == Negate(UnsignedInt(u));
  }

  /** `parseInt` of an optionally signed numeral followed by non-digit text reads
      the numeral with its sign. */
  lemma ParseIntSigned(neg: bool, d: string, rest: string, s: string, v: int)
    requires d != "" && AllDigits(d)
    requires rest != "" ==> !IsRadixDigit(rest[0], 10)
    requires d == "0" && rest != "" ==> rest[0] != 'x' && rest[0] != 'X'
    requires s == (if neg then "-" else "") + d + rest
    requires v == if neg then -(DigitsValue(d) as int) else DigitsValue(d)
    ensures ParseInt(s) == Some(v)
  {
    if neg {
      AppendAssoc("-", d, rest);
      ParseIntNegativeLeading(d, rest);
    } else {
      assert s == d + rest;
      ParseIntLeadingDigits(d, rest);
    }
  }

  /** Removes trailing zero digits from the fraction, and the exponent of a zero,
      so the value is unchanged. */
  function Canonical(d: Decimal): (c: Decimal)
    ensures c.exponent >= d.exponent
    decreases if d.exponent < 0 then -d.exponent else 0
  {
    if d.exponent < 0 && d.mantissa == 0 then Decimal(0, 0)
    else if d.exponent < 0 && d.mantissa % 10 == 0 then
      Canonical(Decimal(d.mantissa / 10, d.exponent + 1))
    else d
  }

  /** Canonical form keeps the integer part. */
  lemma {:induction false} CanonicalTruncate(d: Decimal)
    ensures Truncate(Canonical(d)) == Truncate(d)
    decreases if d.exponent < 0 then -d.exponent else 0
  {
    if d.exponent < 0 && d.mantissa == 0 {
      assert Quotient(0, Pow10(-d.exponent)) == 0;
    } else if d.exponent < 0 && d.mantissa % 10 == 0 {
      TruncateStep(d.mantissa, d.exponent);
      CanonicalTruncate(Decimal(d.mantissa / 10, d.exponent + 1));
    }
  }

  /** Dropping a zero last digit of the mantissa and raising the exponent keeps the
      integer part. */
  lemma TruncateStep(m: int, e: int)
    requires e < 0 && m % 10 == 0
    ensures Truncate(Decimal(m / 10, e + 1)) == Truncate(Decimal(m, e))
  {
    var q := m / 10;
    assert m == 10 * q;
    var a := Abs(q);
    assert Abs(m) == 10 * a;
    var p := Pow10(-(e + 1));
    assert Pow10(-e) == 10 * p;
    DivScale(a, p);
    if e + 1 == 0 {
      assert p == 1;
      assert Truncate(Decimal(q, e + 1)) == q;
    }
  }

  lemma DivScale(a: nat, p: nat)
    requires p >= 1
    ensures (10 * a) / (10 * p) == a / p
  {
    var q, r := a / p, a % p;
    assert a == p * q + r;
    assert 10 * a == (10 * p) * q + 10 * r;
    ModUnique(10 * a, 10 * p, q, 10 * r);
  }

  function Zeros(n: nat): (r: string)
    ensures |r| == n && AllDigits(r)
  {
    if n == 0 then "" else "0" + Zeros(n - 1)
  }

  /** `String(n)` in positional notation (JavaScript switches to exponent notation
      outside 1e-6 .. 1e21, which this model leaves out). */
  function NumberText(d: Decimal): (r: string)
    ensures |r| >= 1
    ensures ';' !in r && ':' !in r
    ensures IsZero(d) ==> r == "0"
  {
    ZeroPositional(d);
    Positional(Canonical(d))
  }

  lemma ZeroPositional(d: Decimal)
    ensures IsZero(d) ==> Positional(Canonical(d)) == "0"
  {
    if IsZero(d) {
      var c := Canonical(d);
      assert c.mantissa == 0 && c.exponent >= 0;
      assert NatText(0) == "0";
      assert Positional(c) == "" + NatText(0 * Pow10(c.exponent));
    }
  }

  /** The digits of the mantissa with a decimal point `-exponent` places from the
      right, a `0` before the point when no integer digits remain. */
  function Positional(c: Decimal): (r: string)
    ensures |r| >= 1
    ensures ';' !in r && ':' !in r
  {
    var sign := if c.mantissa < 0 then "-" else "";
    var a := Abs(c.mantissa);
    if c.exponent >= 0 then
      sign + NatText(a * Pow10(c.exponent))
    else
      var digits := NatText(a);
      var k := -c.exponent;
      if |digits| > k then sign + digits[..|digits| - k] + "." + digits[|digits| - k..]
      else sign + "0." + Zeros(k - |digits|) + digits
  }

  /** `parseInt(String(n))` is `Math.trunc(n)`: the digits before the point, with
      the sign. */
  lemma NumberTextReadsBack(d: Decimal)
    ensures ParseInt(NumberText(d)) == Some(Truncate(d))
  {
    CanonicalTruncate(d);
    PositionalReadsBack(Canonical(d));
  }

  lemma PositionalReadsBack(c: Decimal)
    ensures ParseInt(Positional(c)) == Some(Truncate(c))
  {
    if c.exponent >= 0 {
      WholeReadsBack(c);
    } else if |NatText(Abs(c.mantissa))| > -c.exponent {
      FractionReadsBack(c);
    } else {
      SmallReadsBack(c);
    }
  }

  /** An integer written out in full reads back whole. */
  lemma WholeReadsBack(c: Decimal)
    requires c.exponent >= 0
    ensures ParseInt(Positional(c)) == Some(Truncate(c))
  {
    var neg := c.mantissa < 0;
    var x := Abs(c.mantissa) * Pow10(c.exponent);
    assert Truncate(c) == if neg then -x else x by {
      if neg {
        NegMul(-c.mantissa, Pow10(c.exponent));
      }
    }
    ParseIntSigned(neg, NatText(x), "", Positional(c), Truncate(c));
  }

  /** With integer digits before the point, they are what `parseInt` reads. */
  lemma FractionReadsBack(c: Decimal)
    requires c.exponent < 0 && |NatText(Abs(c.mantissa))| > -c.exponent
    ensures ParseInt(Positional(c)) == Some(Truncate(c))
  {
    var neg := c.mantissa < 0;
    var a := Abs(c.mantissa);
    var digits := NatText(a);
    var k := -c.exponent;
    var whole, frac := digits[..|digits| - k], digits[|digits| - k..];
    var w: int := DigitsValue(whole);
    assert Truncate(c) == if neg then -w else w by {
      IntegerDigits(a, k);
    }
    assert Positional(c) == (if neg then "-" else "") + whole + ("." + frac) by {
      AppendAssoc((if neg then "-" else "") + whole, ".", frac);
    }
    ParseIntSigned(neg, whole, "." + frac, Positional(c), Truncate(c));
  }

  /** Dropping the last `k` digits of a numeral divides its value by `10^k`. */
  lemma IntegerDigits(a: nat, k: nat)
    requires |NatText(a)| > k
    ensures a / Pow10(k) == DigitsValue(NatText(a)[..|NatText(a)| - k])
  {
    var digits := NatText(a);
    var m := |digits| - k;
    DigitsSplit(digits, m);
    DigitsBound(digits[m..]);
    assert |digits| - m == k && |digits[m..]| == k;
    DivOfSplit(a, DigitsValue(digits[..m]), Pow10(k), DigitsValue(digits[m..]));
  }

  lemma DivOfSplit(a: int, w: int, p: int, f: int)
    requires p >= 1 && 0 <= f < p && a == w * p + f
    ensures a / p == w
  {
    assert w * p == p * w;
    ModUnique(a, p, w, f);
  }

  /** With no integer digits the text starts `0.`, and the integer part is 0. */
  lemma SmallReadsBack(c: Decimal)
    requires c.exponent < 0 && |NatText(Abs(c.mantissa))| <= -c.exponent
    ensures ParseInt(Positional(c)) == Some(Truncate(c))
  {
    var neg := c.mantissa < 0;
    var a := Abs(c.mantissa);
    var digits := NatText(a);
    var k := -c.exponent;
    assert Truncate(c) == 0 by {
      DigitsBound(digits);
      Pow10Monotone(|digits|, k);
      ModUnique(a, Pow10(k), 0, a);
    }
    var rest := "." + Zeros(k - |digits|) + digits;
    assert Positional(c) == (if neg then "-" else "") + "0" + rest by {
      var sign := if neg then "-" else "";
      assert sign + "0." == (sign + "0") + ".";
      AppendAssoc(sign + "0", ".", Zeros(k - |digits|));
      AppendAssoc(sign + "0", "." + Zeros(k - |digits|), digits);
    }
    assert DigitsValue("0") == 0 by {
      assert "0"[..0] == "";
    }
    ParseIntSigned(neg, "0", rest, Positional(c), Truncate(c));
  }

  lemma NegMul(a: int, p: int)
    ensures (-a) * p == -(a * p)
  {
  }
}

=== FILE: jstext.dfy ===
/** String primitives with the semantics of the JavaScript built-ins the controller
    relies on: `String.prototype.trim`, `split(';')`, and decimal digit handling. */
module JsText {

  /** The WhiteSpace and LineTerminator code points that `trim`, `Number()` and
      `parseInt` strip (ECMAScript StrWhiteSpaceChar). */
  predicate IsSpace(c: char) {
    || c == '\t' || c == '\n' || c == '\U{B}' || c == '\U{C}' || c == '\r'
    || c == ' ' || c == '\U{A0}' || c == '\U{1680}'
    || ('\U{2000}' <= c <= '\U{200A}')
    || c == '\U{2028}' || c == '\U{2029}' || c == '\U{202F}' || c == '\U{205F}'
    || c == '\U{3000}' || c == '\U{FEFF}'
  }

  predicate AllSpace(s: string) {
    forall i :: 0 <= i < |s| ==> IsSpace(s[i])
  }

  /** True when `s` has no white space at either end (the empty string included). */
  predicate Trimmed(s: string) {
    s == [] || (!IsSpace(s[0]) && !IsSpace(s[|s| - 1]))
  }

  /** The number of white-space characters at the start of `s`. */
  function LeadingSpaces(s: string): (n: nat)
    ensures n <= |s|
    ensures forall i :: 0 <= i < n ==> IsSpace(s[i])
    ensures n < |s| ==> !IsSpace(s[n])
  {
    if |s| > 0 && IsSpace(s[0]) then 1 + LeadingSpaces(s[1..]) else 0
  }

  /** The number of white-space characters at the end of `s`. */
  function TrailingSpaces(s: string): (n: nat)
    ensures n <= |s|
    ensures forall i :: |s| - n <= i < |s| ==> IsSpace(s[i])
    ensures n < |s| ==> !IsSpace(s[|s| - n - 1])
  {
    if |s| > 0 && IsSpace(s[|s| - 1]) then 1 + TrailingSpaces(s[..|s| - 1]) else 0
  }

  /** Drops leading white space (the first step of `parseInt`). */
  function TrimStart(s: string): (r: string)
    ensures r == [] || !IsSpace(r[0])
  {
    s[LeadingSpaces(s)..]
  }

  /** `r` is `s[a..a + |r|]` and everything of `s` around it is white space. */
  predicate SliceWithin(s: string, r: string, a: int) {
    && 0 <= a <= |s| - |r|
    && r == s[a..a + |r|]
    && (forall i :: 0 <= i < a ==> IsSpace(s[i]))
    && (forall i :: a + |r| <= i < |s| ==> IsSpace(s[i]))
  }

  /** `String.prototype.trim`: the result is the slice of `s` left once the white
      space at both ends is removed. */
  function Trim(s: string): (r: string)
    ensures Trimmed(r)
    ensures SliceWithin(s, r, LeadingSpaces(s))
    ensures r == [] <==> AllSpace(s)
  {
    var a := LeadingSpaces(s);
    if a == |s| then []
    else
      var n := TrailingSpaces(s);
      assert !IsSpace(s[a]);
      s[a..|s| - n]
  }

  /** Trimming leaves a string without surrounding white space unchanged. */
  lemma {:induction false} TrimTrimmed(s: string)
    requires Trimmed(s)
    ensures Trim(s) == s
  {
    if s != [] {
      assert LeadingSpaces(s) == 0;
      assert TrailingSpaces(s) == 0;
    }
  }

  /** Index of the first `c` in `s`, or `|s|` when there is none. */
  function IndexOf(s: string, c: char): (i: nat)
    ensures i <= |s|
    ensures forall j :: 0 <= j < i ==> s[j] != c
    ensures i < |s| ==> s[i] == c
  {
    if s == [] then 0 else if s[0] == c then 0 else 1 + IndexOf(s[1..], c)
  }

  /** `s.split(sep)` for a one-character separator: the pieces between separators,
      in order; the empty string splits into one empty piece. */
  function Split(s: string, sep: char): (r: seq<string>)
    ensures |r| >= 1
    ensures forall k :: 0 <= k < |r| ==> sep !in r[k]
    ensures Join(r, sep) == s
    decreases |s|
  {
    var i := IndexOf(s, sep);
    if i == |s| then [s]
    else
      var rest := Split(s[i + 1..], sep);
      assert s == s[..i] + [sep] + s[i + 1..];
      [s[..i]] + rest
  }

  /** Pieces joined with `sep` between consecutive elements (`Array.prototype.join`). */
  function Join(pieces: seq<string>, sep: char): string
    requires |pieces| >= 1
  {
    if |pieces| == 1 then pieces[0] else pieces[0] + [sep] + Join(pieces[1..], sep)
  }

  /** Joining one more piece appends the separator and the piece. */
  lemma {:induction false} JoinSnoc(pieces: seq<string>, p: string, sep: char)
    requires |pieces| >= 1
    ensures Join(pieces + [p], sep) == Join(pieces, sep) + [sep] + p
  {
    var xs := pieces + [p];
    if |pieces| == 1 {
      assert xs[1..] == [p];
    } else {
      assert xs[1..] == pieces[1..] + [p];
      JoinSnoc(pieces[1..], p, sep);
    }
  }

  /** Splitting undoes joining when no piece holds the separator. */
  lemma {:induction false} SplitJoin(pieces: seq<string>, sep: char)
    requires |pieces| >= 1
    requires forall k :: 0 <= k < |pieces| ==> sep !in pieces[k]
    ensures Split(Join(pieces, sep), sep) == pieces
  {
    var s := Join(pieces, sep);
    var p := pieces[0];
    if |pieces| == 1 {
      assert IndexOf(s, sep) == |s|;
    } else {
      var rest := Join(pieces[1..], sep);
      assert s == p + [sep] + rest;
      assert s[|p|] == sep;
      assert forall j :: 0 <= j < |p| ==> s[j] == p[j];
      assert IndexOf(s, sep) == |p|;
      assert s[..|p|] == p;
      assert s[|p| + 1..] == rest;
      SplitJoin(pieces[1..], sep);
    }
  }

  predicate IsDigit(c: char) {
    '0' <= c <= '9'
  }

  predicate AllDigits(s: string) {
    forall i :: 0 <= i < |s| ==> IsDigit(s[i])
  }

  function DigitChar(d: nat): (c: char)
    requires d < 10
    ensures IsDigit(c) && (c as int) - ('0' as int) == d
  {
    (('0' as int) + d) as char
  }

  function Abs(n: int): nat {
    if n < 0 then -n else n
  }

  function Pow10(n: nat): (p: nat)
    ensures p >= 1
  {
    if n == 0 then 1 else 10 * Pow10(n - 1)
  }

  lemma {:induction false} Pow10Monotone(i: nat, j: nat)
    requires i <= j
    ensures Pow10(i) <= Pow10(j)
  {
    if i < j {
      Pow10Monotone(i, j - 1);
    }
  }

  /** The value of a string of decimal digits, read most significant first. */
  function DigitsValue(s: string): nat
    requires AllDigits(s)
  {
    if s == [] then 0 else 10 * DigitsValue(s[..|s| - 1]) + ((s[|s| - 1] as int) - ('0' as int))
  }

  /** `k` digits are worth less than `10^k`. */
  lemma {:induction false} DigitsBound(s: string)
    requires AllDigits(s)
    ensures DigitsValue(s) < Pow10(|s|)
  {
    if s != [] {
      DigitsBound(s[..|s| - 1]);
    }
  }

  /** A numeral cut at `m` is its head shifted past the tail, plus the tail. */
  lemma {:induction false} DigitsSplit(s: string, m: nat)
    requires AllDigits(s) && m <= |s|
    ensures DigitsValue(s) == DigitsValue(s[..m]) * Pow10(|s| - m) + DigitsValue(s[m..])
  {
    if m == |s| {
      assert s[..m] == s && s[m..] == "";
    } else {
      var init, tail := s[..|s| - 1], s[m..];
      DigitsSplit(init, m);
      assert init[..m] == s[..m];
      assert tail[..|tail| - 1] == init[m..];
      assert tail[|tail| - 1] == s[|s| - 1];
      var h: int, t: int, p: int := DigitsValue(s[..m]), DigitsValue(init[m..]), Pow10(|init| - m);
      assert Pow10(|s| - m) == 10 * p;
      ShiftOneDigit(h, p, t);
    }
  }

  lemma ShiftOneDigit(h: int, p: int, t: int)
    ensures 10 * (h * p + t) == h * (10 * p) + 10 * t
  {
  }

  /** The decimal numeral of `n` with no leading zeros ("0" for zero). */
  function NatText(n: nat): (r: string)
    ensures |r| >= 1 && AllDigits(r)
    ensures DigitsValue(r) == n
    ensures |r| > 1 ==> r[0] != '0'
  {
    if n < 10 then [DigitChar(n)]
    else
      var r := NatText(n / 10) + [DigitChar(n % 10)];
      assert r[..|r| - 1] == NatText(n / 10);
      r
  }

  /** The decimal numeral of `n`, `-` first when negative. */
  function IntText(n: int): (r: string)
    ensures |r| >= 1 && Trimmed(r)
  {
    if n < 0 then "-" + NatText(-n) else NatText(n)
  }

  /** The last `w` decimal digits of `n`, zero-padded (`String(n).padStart(w, '0')`
      when `n` has at most `w` digits). */
  function Pad(n: nat, w: nat): (r: string)
    ensures |r| == w && AllDigits(r)
    ensures DigitsValue(r) == n % Pow10(w)
  {
    if w == 0 then ""
    else
      var r := Pad(n / 10, w - 1) + [DigitChar(n % 10)];
      assert r[..|r| - 1] == Pad(n / 10, w - 1);
      PadStep(n, w - 1);
      r
  }

  lemma PadStep(n: nat, w: nat)
    ensures 10 * ((n / 10) % Pow10(w)) + n % 10 == n % Pow10(w + 1)
  {
    var p := Pow10(w);
    var q := n / 10;
    assert n == 10 * q + n % 10;
    assert q == p * (q / p) + q % p;
    assert n == 10 * p * (q / p) + (10 * (q % p) + n % 10);
    assert 0 <= 10 * (q % p) + n % 10 < 10 * p;
    assert Pow10(w + 1) == 10 * p;
    ModUnique(n, 10 * p, q / p, 10 * (q % p) + n % 10);
  }

  lemma ModUnique(n: int, d: int, q: int, r: int)
    requires d > 0 && 0 <= r < d && n == d * q + r
    ensures n / d == q && n % d == r
  {
    var q', r' := n / d, n % d;
    assert d * (q - q') == r' - r;
    if q > q' {
      MulAtLeast(d, q - q');
    } else if q < q' {
      MulAtLeast(d, q' - q);
    }
  }

  lemma MulAtLeast(d: int, k: int)
    requires d > 0 && k >= 1
    ensures d * k >= d
  {
  }
}

=== FILE: options.dfy ===
/** Failure-carrying wrappers used across the model: `Option` for JavaScript's
    null/undefined results and `Result` for a row that is either resolved or skipped. */
module Options {

  datatype Option<+T> = None | Some(value: T)

  datatype Result<+T, +E> = Ok(value: T) | Err(error: E) {

    predicate IsFailure() {
      Err?
    }

    function PropagateFailure<U>(): Result<U, E>
      requires Err?
    {
      Err(error)
    }

    function Extract(): T
      requires Ok?
    {
      value
    }
  }
}

=== FILE: rows.dfy ===
/** Row resolution for the two upload handlers: each decoded spreadsheet row is
    resolved to an employee, a calendar date and a day's times, or skipped for the
    first check it fails. No check reads the timesheets table. */
module Rows {
  import opened Options
  import opened Sequences
  import opened JsText
  import opened JsNumbers
  import opened Calendar
  import opened Helpers
  import opened Employees
  import opened Timesheets

  /** The two spreadsheet layouts. `Punches` is the device export read by
      `uploadTimesheetWithSequelizeUpsert` (`Personnel ID`, `Record Date`,
      `Punch Time`); `Flat` is the layout read by `uploadTimesheet`
      (`mapped_id`, `Date`, `Check In`, `Check Out`). */
  datatype Format = Punches | Flat

  /** Why a row was skipped, in the order the checks run. */
  datatype SkipReason =
    | MissingId        // blank Personnel ID
    | InvalidId        // an id that is not an integer (NaN for the flat layout)
    | UnknownEmployee  // no employee carries that mapped_id
    | InvalidDate      // the date cell does not parse
    | NoPunchTimes     // the punch list holds no token
    | InvalidCheckIn   // the first punch does not parse as a time

  /** A row that passed every check: whose it is, which day, and what to write. */
  datatype Resolved = Resolved(employee: Employee, date: Date, fields: Fields)

  function KeyOfResolved(res: Resolved): Key {
    Key(res.employee.employeeId, res.date)
  }

  /** An optional value, or the skip reason when it is missing. */
  function Require<T>(o: Option<T>, reason: SkipReason): (r: Result<T, SkipReason>)
    ensures r.Ok? <==> o.Some?
    ensures r.Ok? ==> r.value == o.value
    ensures r.Err? ==> r.error == reason
  {
    match o
    case Some(v) => Ok(v)
    case None => Err(reason)
  }

  /** `getEmployeeByMappedId(id)`, with a missing employee as a skip. */
  function Lookup(dir: Directory, id: int): (r: Result<Employee, SkipReason>)
    ensures r.Ok? ==> r.value in dir && r.value.mappedId == Some(id)
    ensures r.Err? <==> forall k :: 0 <= k < |dir| ==> dir[k].mappedId != Some(id)
    ensures r.Err? ==> r.error == UnknownEmployee
  {
    Require(FindByMappedId(dir, id), UnknownEmployee)
  }

  /** A Personnel ID that is null/undefined, or a string that trims to nothing.
      (A number never renders as blank.) */
  predicate BlankId(c: Cell) {
    c.Absent? || (c.Text? && Trim(c.text) == "")
  }

  /** `Number(cell)`: `None` stands for NaN. */
  function ToNumber(c: Cell): Option<Decimal> {
    match c
    case Absent => None
    case Text(s) => NumberOf(s)
    case Num(n) => Some(n)
  }

  /** The Personnel ID checks of the punch layout: a blank cell is a missing id;
      otherwise the cell must convert with `Number` to an integer. */
  function PersonnelId(c: Cell): (r: Result<int, SkipReason>)
    ensures r == Err(MissingId) <==> BlankId(c)
    ensures r == Err(InvalidId) <==> !BlankId(c) && (ToNumber(c).None? || !IsInteger(ToNumber(c).value))
    ensures r.Ok? <==> !BlankId(c) && ToNumber(c).Some? && IsInteger(ToNumber(c).value)
    ensures r.Ok? ==> r.value == Truncate(ToNumber(c).value)
  {
    if BlankId(c) then Err(MissingId)
    else match ToNumber(c)
      case None => Err(InvalidId)
      case Some(n) => if IsInteger(n) then Ok(Truncate(n)) else Err(InvalidId)
  }

  /** `Number.isInteger(raw) ? raw : parseInt(raw)` of the flat layout: an integer
      number is taken as it is; any other cell goes through `parseInt` of its
      string form (`undefined` for a missing cell, which has no digits). */
  function MappedId(c: Cell): (r: Result<int, SkipReason>)
    ensures r.Err? ==> r.error == InvalidId
    ensures c.Num? && IsInteger(c.number) ==> r == Ok(Truncate(c.number))
    ensures c.Text? ==> (r.Ok? <==> ParseInt(c.text).Some?)
    ensures c.Text? && r.Ok? ==> r.value == ParseInt(c.text).value
    ensures c.Num? ==> r == Ok(Truncate(c.number))
    ensures c.Absent? ==> r.Err?
  {
    match c
    case Absent => Err(InvalidId)
    case Text(s) => Require(ParseInt(s), InvalidId)
    case Num(n) =>
      if IsInteger(n) then Ok(Truncate(n))
      else
        NumberTextReadsBack(n);
        Require(ParseInt(NumberText(n)), InvalidId)
  }

  /** The numeral of any integer is a valid id in both layouts, and it is that
      integer: a row is never skipped for a well-written id. */
  lemma IntTextReadsBack(n: int)
    ensures NumberOf(IntText(n)) == Some(Decimal(n, 0))
    ensures PersonnelId(Text(IntText(n))) == Ok(n)
    ensures MappedId(Text(IntText(n))) == Ok(n)
  {
    var t := IntText(n);
    NumberOfIntText(n);
    ParseIntOfIntText(n);
    TrimTrimmed(t);
    assert !BlankId(Text(t));
    assert IsInteger(Decimal(n, 0)) && Truncate(Decimal(n, 0)) == n;
  }

  /** The flat layout reads an id leniently, the punch layout strictly: the text
      `12abc` gives mapped id 12 in the first and is invalid in the second. */
  lemma LenientTextId()
    ensures MappedId(Text("12abc")) == Ok(12)
    ensures PersonnelId(Text("12abc")) == Err(InvalidId)
  {
    ReadsTwelve("12abc", "abc");
    NotANumber("12abc");
  }

  /** `12` followed by text that does not continue it is read as 12 in the flat
      layout. */
  lemma ReadsTwelve(s: string, rest: string)
    requires rest != "" && !IsRadixDigit(rest[0], 10) && s == "12" + rest
    ensures MappedId(Text(s)) == Ok(12)
  {
    ParseIntLeadingDigits("12", rest);
    assert DigitsValue("12") == 12 by {
      assert "12"[..1] == "1" && "1"[..0] == "";
    }
  }

  /** Likewise the number 12.5: `parseInt` reads its string `12.5` as 12, while
      the punch layout rejects it as not an integer. */
  lemma LenientNumberId()
    ensures MappedId(Num(Decimal(125, -1))) == Ok(12)
    ensures PersonnelId(Num(Decimal(125, -1))) == Err(InvalidId)
  {
    TwelvePointFive();
    ReadsTwelve("12.5", ".5");
  }

  lemma TwelvePointFive()
    ensures NumberText(Decimal(125, -1)) == "12.5"
  {
    assert Canonical(Decimal(125, -1)) == Decimal(125, -1);
    assert NatText(125) == "125";
  }

  /** `12abc` is not a number literal. */
  lemma NotANumber(s: string)
    requires s == "12abc"
    ensures NumberOf(s) == None
  {
    TrimTrimmed(s);
    assert IndexOf(s, 'e') == 5 && IndexOf(s, 'E') == 5;
    assert IndexOf(s, '.') == 5;
    assert !AllDigits(s);
  }

  /** `String(row['Punch Time'] || '')`: a missing cell, the empty string and the
      number 0 all become the empty string. */
  function PunchText(c: Cell): (r: string)
    ensures r == "" <==> c.Absent? || c == Text("") || (c.Num? && IsZero(c.number))
    ensures c.Num? ==> ';' !in r
  {
    match c
    case Absent => ""
    case Text(s) => s
    case Num(n) => if IsZero(n) then "" else NumberText(n)
  }

  /** A punch token: non-empty and without surrounding white space. */
  predicate CleanToken(t: string) {
    t != "" && Trimmed(t)
  }

  predicate AllBlank(pieces: seq<string>) {
    forall i :: 0 <= i < |pieces| ==> AllSpace(pieces[i])
  }

  /** `.map(t => t.trim()).filter(Boolean)`: every piece trimmed, the empty ones
      dropped, the rest kept in order. */
  function NonBlank(pieces: seq<string>): (r: seq<string>)
    ensures |r| <= |pieces|
    ensures forall i :: 0 <= i < |r| ==> CleanToken(r[i])
    ensures r == [] <==> AllBlank(pieces)
  {
    if pieces == [] then []
    else
      var t := Trim(pieces[0]);
      var rest := NonBlank(pieces[1..]);
      assert forall i :: 0 <= i < |pieces| - 1 ==> pieces[1..][i] == pieces[i + 1];
      (if t == "" then [] else [t]) + rest
  }

  /** The punch list of a `Punch Time` string: its `;`-separated pieces, trimmed,
      with empty ones dropped. */
  function PunchTokens(s: string): (r: seq<string>)
    ensures forall i :: 0 <= i < |r| ==> CleanToken(r[i])
    ensures r == [] <==> AllBlank(Split(s, ';'))
  {
    NonBlank(Split(s, ';'))
  }

  /** Clean pieces pass through the filter unchanged. */
  lemma {:induction false} NonBlankOfClean(pieces: seq<string>)
    requires forall i :: 0 <= i < |pieces| ==> CleanToken(pieces[i])
    ensures NonBlank(pieces) == pieces
  {
    if pieces != [] {
      TrimTrimmed(pieces[0]);
      NonBlankOfClean(pieces[1..]);
    }
  }

  /** Joining clean tokens with `;` and reading the punch list back gives the
      tokens again. */
  lemma PunchTokensOfJoin(ts: seq<string>)
    requires |ts| >= 1
    requires forall i :: 0 <= i < |ts| ==> CleanToken(ts[i]) && ';' !in ts[i]
    ensures PunchTokens(Join(ts, ';')) == ts
  {
    SplitJoin(ts, ';');
    NonBlankOfClean(ts);
  }

  /** The pieces with their surrounding white space removed. */
  function Trims(pieces: seq<string>): (r: seq<string>)
    ensures |r| == |pieces|
    ensures forall i :: 0 <= i < |r| ==> r[i] == Trim(pieces[i])
  {
    seq(|pieces|, i requires 0 <= i < |pieces| => Trim(pieces[i]))
  }

  /** Pieces that are not blank are all kept, each trimmed. */
  lemma {:induction false} NonBlankOfPieces(pieces: seq<string>)
    requires forall i :: 0 <= i < |pieces| ==> !AllSpace(pieces[i])
    ensures NonBlank(pieces) == Trims(pieces)
  {
    if pieces != [] {
      NonBlankOfPieces(pieces[1..]);
      assert Trims(pieces) == [Trim(pieces[0])] + Trims(pieces[1..]);
    }
  }

  /** The punch list of `;`-joined pieces, none of them blank, is the pieces
      trimmed: `08:00; 17:00` gives `08:00` and `17:00`. */
  lemma PunchTokensOfPieces(pieces: seq<string>)
    requires |pieces| >= 1
    requires forall i :: 0 <= i < |pieces| ==> ';' !in pieces[i] && !AllSpace(pieces[i])
    ensures PunchTokens(Join(pieces, ';')) == Trims(pieces)
  {
    SplitJoin(pieces, ';');
    NonBlankOfPieces(pieces);
  }

  /** Filtering a concatenation of piece lists filters each list. */
  lemma {:induction false} NonBlankAppend(a: seq<string>, b: seq<string>)
    ensures NonBlank(a + b) == NonBlank(a) + NonBlank(b)
  {
    if a == [] {
      assert a + b == b;
    } else {
      var t := Trim(a[0]);
      var head := if t == "" then [] else [t];
      assert (a + b)[0] == a[0];
      assert (a + b)[1..] == a[1..] + b;
      assert NonBlank(a) == head + NonBlank(a[1..]);
      assert NonBlank(a + b) == head + NonBlank(a[1..] + b);
      NonBlankAppend(a[1..], b);
      AppendAssoc(head, NonBlank(a[1..]), NonBlank(b));
    }
  }

  /** One piece is kept, trimmed, exactly when it is not blank. */
  lemma NonBlankOne(p: string)
    ensures NonBlank([p]) == if AllSpace(p) then [] else [Trim(p)]
  {
    assert [p][1..] == [];
  }

  /** The first punch is the first piece that is not blank, trimmed. */
  lemma FirstNonBlank(pieces: seq<string>, i: nat)
    requires i < |pieces|
    requires forall k :: 0 <= k < i ==> AllSpace(pieces[k])
    requires !AllSpace(pieces[i])
    ensures NonBlank(pieces) != [] && NonBlank(pieces)[0] == Trim(pieces[i])
  {
    var before, rest := pieces[..i], pieces[i + 1..];
    PickOut(pieces, i);
    assert AllBlank(before);
    NonBlankAppend(before, [pieces[i]] + rest);
    assert NonBlank(pieces) == NonBlank([pieces[i]] + rest);
    NonBlankAppend([pieces[i]], rest);
    NonBlankOne(pieces[i]);
    assert NonBlank(pieces) == [Trim(pieces[i])] + NonBlank(rest);
  }

  /** The last punch is the last piece that is not blank, trimmed. */
  lemma LastNonBlank(pieces: seq<string>, j: nat)
    requires j < |pieces|
    requires forall k :: j < k < |pieces| ==> AllSpace(pieces[k])
    requires !AllSpace(pieces[j])
    ensures NonBlank(pieces) != [] && Last(NonBlank(pieces)) == Trim(pieces[j])
  {
    var before, p, after := pieces[..j], pieces[j], pieces[j + 1..];
    var front := NonBlank(before);
    assert NonBlank(pieces) == NonBlank(before + [p]) by {
      PickOut(pieces, j);
      assert AllBlank(after);
      NonBlankAppend(before + [p], after);
    }
    assert NonBlank(before + [p]) == front + [Trim(p)] by {
      NonBlankAppend(before, [p]);
      NonBlankOne(p);
    }
    LastOfSnoc(front, Trim(p));
  }

  lemma LastOfSnoc(tokens: seq<string>, t: string)
    ensures Last(tokens + [t]) == t
  {
  }

  /** A trailing `;` adds only an empty piece, so the punch list is unchanged. */
  lemma TrailingSeparator(s: string)
    ensures PunchTokens(s + ";") == PunchTokens(s)
  {
    var ps := Split(s, ';');
    JoinSnoc(ps, "", ';');
    assert Join(ps + [""], ';') == s + ";";
    SplitJoin(ps + [""], ';');
    NonBlankAppend(ps, [""]);
    NonBlankOne("");
  }

  /** Parsing a time trims the text first, so trimming it beforehand changes nothing. */
  lemma ParseTimeOfTrim(s: string)
    ensures ParseTimeText(Trim(s)) == ParseTimeText(s)
  {
    var t := Trim(s);
    if t == "" {
      assert IndexOf(t, ':') == |t|;
    } else {
      TrimTrimmed(t);
    }
  }

  /** The last punch of a non-empty list. */
  function Last(tokens: seq<string>): string
    requires tokens != []
  {
    tokens[|tokens| - 1]
  }

  /** Fields as both handlers compute them: parsed times, and the hours
      `calculateTotalHours` derives from their strings. */
  predicate ResolvedFields(f: Fields) {
    && (f.checkIn.Some? ==> ValidTime(f.checkIn.value))
    && (f.checkOut.Some? ==> ValidTime(f.checkOut.value))
    && f.totalHours == CalculateTotalHours(TimeString(f.checkIn), TimeString(f.checkOut))
  }

  /** Checks of the punch layout, in the handler's order: Personnel ID, employee,
      `Record Date`, punch list, first punch; nothing else of the row can make it
      skipped. The last punch is the check-out, and a check-out that does not
      parse is kept as null. */
  function ResolvePunches(dir: Directory, row: RawRow): (r: Result<Resolved, SkipReason>)
    ensures r == Err(MissingId) <==> BlankId(Get(row, "Personnel ID"))
    ensures r == Err(InvalidId) <==> PersonnelId(Get(row, "Personnel ID")) == Err(InvalidId)
    ensures r.Ok? <==>
      && PersonnelId(Get(row, "Personnel ID")).Ok?
      && Lookup(dir, PersonnelId(Get(row, "Personnel ID")).value).Ok?
      && ParseDate(Get(row, "Record Date")).Some?
      && PunchTokens(PunchText(Get(row, "Punch Time"))) != []
      && ParseTimeText(PunchTokens(PunchText(Get(row, "Punch Time")))[0]).Some?
    ensures r.Ok? ==>
      && r.value.employee in dir
      && r.value.employee.mappedId == Some(PersonnelId(Get(row, "Personnel ID")).value)
      && ParseDate(Get(row, "Record Date")) == Some(r.value.date)
      && PunchTokens(PunchText(Get(row, "Punch Time"))) != []
      && r.value.fields.checkIn == ParseTimeText(PunchTokens(PunchText(Get(row, "Punch Time")))[0])
      && r.value.fields.checkIn.Some?
      && r.value.fields.checkOut == ParseTimeText(Last(PunchTokens(PunchText(Get(row, "Punch Time")))))
    ensures r.Ok? ==> ResolvedFields(r.value.fields)
  {
    var id :- PersonnelId(Get(row, "Personnel ID"));
    var employee :- Lookup(dir, id);
    var date :- Require(ParseDate(Get(row, "Record Date")), InvalidDate);
    var tokens := PunchTokens(PunchText(Get(row, "Punch Time")));
    if tokens == [] then Err(NoPunchTimes)
    else
      var checkIn :- Require(ParseTimeText(tokens[0]), InvalidCheckIn);
      var checkOut := ParseTimeText(Last(tokens));
      Ok(Resolved(employee, date, Fields(Some(checkIn), checkOut,
        CalculateTotalHours(TimeString(Some(checkIn)), TimeString(checkOut)))))
  }

  /** A packed row whose punch cell is `;`-separated pieces is written exactly when
      its id, employee and date check out and the first piece that is not blank is
      a time; that piece is then the check-in and the last piece that is not blank
      the check-out, whatever lies between them. Blank pieces (an empty piece
      between two `;`, a trailing `;`) are skipped. */
  lemma FirstAndLastPunch(dir: Directory, row: RawRow, pieces: seq<string>, i: nat, j: nat)
    requires i < |pieces| && j < |pieces|
    requires forall k :: 0 <= k < |pieces| ==> ';' !in pieces[k]
    requires forall k :: 0 <= k < i ==> AllSpace(pieces[k])
    requires !AllSpace(pieces[i]) && !AllSpace(pieces[j])
    requires forall k :: j < k < |pieces| ==> AllSpace(pieces[k])
    requires Get(row, "Punch Time") == Text(Join(pieces, ';'))
    ensures ResolvePunches(dir, row).Ok? <==>
      && PersonnelId(Get(row, "Personnel ID")).Ok?
      && Lookup(dir, PersonnelId(Get(row, "Personnel ID")).value).Ok?
      && ParseDate(Get(row, "Record Date")).Some?
      && ParseTimeText(pieces[i]).Some?
    ensures ResolvePunches(dir, row).Ok? ==>
      && ResolvePunches(dir, row).value.fields.checkIn == ParseTimeText(pieces[i])
      && ResolvePunches(dir, row).value.fields.checkOut == ParseTimeText(pieces[j])
  {
    assert PunchText(Get(row, "Punch Time")) == Join(pieces, ';');
    SplitJoin(pieces, ';');
    FirstNonBlank(pieces, i);
    LastNonBlank(pieces, j);
    ParseTimeOfTrim(pieces[i]);
    ParseTimeOfTrim(pieces[j]);
  }

  /** The punch cell `08:00; 12:00; 13:00; 17:00` gives check-in 08:00 and
      check-out 17:00; the punches between them are ignored. */
  lemma FourPunches(dir: Directory, row: RawRow)
    requires Get(row, "Punch Time") == Text("08:00; 12:00; 13:00; 17:00")
    ensures ResolvePunches(dir, row).Ok? ==>
      && ResolvePunches(dir, row).value.fields.checkIn == Some(TimeOfDay(8, 0, 0))
      && ResolvePunches(dir, row).value.fields.checkOut == Some(TimeOfDay(17, 0, 0))
  {
    FourPiecesJoin();
    var pieces := ["08:00", " 12:00", " 13:00", " 17:00"];
    FourPieces(pieces);
    EightOClock(pieces[0]);
    FiveOClock(pieces[3]);
    FirstAndLastPunch(dir, row, pieces, 0, 3);
  }

  lemma FourPiecesJoin()
    ensures Join(["08:00", " 12:00", " 13:00", " 17:00"], ';') == "08:00; 12:00; 13:00; 17:00"
  {
    JoinFour("08:00", " 12:00", " 13:00", " 17:00", ';');
  }

  lemma JoinFour(a: string, b: string, c: string, d: string, sep: char)
    ensures Join([a, b, c, d], sep) == a + [sep] + (b + [sep] + (c + [sep] + d))
  {
    var ps := [a, b, c, d];
    assert ps[1..] == [b, c, d] && ps[1..][1..] == [c, d] && ps[1..][1..][1..] == [d];
    assert Join([c, d], sep) == c + [sep] + d;
    assert Join([b, c, d], sep) == b + [sep] + (c + [sep] + d);
  }

  lemma FourPieces(pieces: seq<string>)
    requires pieces == ["08:00", " 12:00", " 13:00", " 17:00"]
    ensures forall i :: 0 <= i < |pieces| ==> ';' !in pieces[i] && !AllSpace(pieces[i])
  {
    assert !IsSpace(pieces[0][0]) && !IsSpace(pieces[1][1]);
    assert !IsSpace(pieces[2][1]) && !IsSpace(pieces[3][1]);
  }

  lemma EightOClock(s: string)
    requires s == "08:00"
    ensures ParseTimeText(s) == Some(TimeOfDay(8, 0, 0))
  {
    assert s == "08" + ":" + "00";
    HourMinuteText("08", "00");
    assert DigitsValue("08") == 8 by {
      assert "08"[..1] == "0" && "0"[..0] == "";
    }
    assert DigitsValue("00") == 0 by {
      assert "00"[..1] == "0" && "0"[..0] == "";
    }
  }

  lemma FiveOClock(s: string)
    requires s == " 17:00"
    ensures ParseTimeText(s) == Some(TimeOfDay(17, 0, 0))
  {
    var t := s[1..];
    assert s == " " + t && t == "17:00";
    assert !IsSpace(t[0]) && !IsSpace(t[4]);
    SpaceThenToken(t);
    SeventeenHundred(t);
    ParseTimeOfTrim(s);
  }

  lemma SeventeenHundred(s: string)
    requires s == "17:00"
    ensures ParseTimeText(s) == Some(TimeOfDay(17, 0, 0))
  {
    assert s == "17" + ":" + "00";
    HourMinuteText("17", "00");
    assert DigitsValue("17") == 17 by {
      assert "17"[..1] == "1" && "1"[..0] == "";
    }
    assert DigitsValue("00") == 0 by {
      assert "00"[..1] == "0" && "0"[..0] == "";
    }
  }

  /** One space before a clean token trims away. */
  lemma SpaceThenToken(t: string)
    requires CleanToken(t)
    ensures Trim(" " + t) == t
  {
    var s := " " + t;
    assert s[1..] == t;
    assert LeadingSpaces(t) == 0;
    assert LeadingSpaces(s) == 1;
    assert TrailingSpaces(s) == 0;
    assert s[1..|s|] == t;
  }

  /** Checks of the flat layout: the mapped id, the employee, then the `Date`.
      Both times are optional, and all three cells are parsed before the date
      check. */
  function ResolveFlat(dir: Directory, row: RawRow): (r: Result<Resolved, SkipReason>)
    ensures r.Ok? <==>
      && MappedId(Get(row, "mapped_id")).Ok?
      && Lookup(dir, MappedId(Get(row, "mapped_id")).value).Ok?
      && ParseDate(Get(row, "Date")).Some?
    ensures r.Ok? ==>
      && r.value.employee in dir
      && r.value.employee.mappedId == Some(MappedId(Get(row, "mapped_id")).value)
      && Some(r.value.date) == ParseDate(Get(row, "Date"))
      && r.value.fields.checkIn == ParseTime(Get(row, "Check In"))
      && r.value.fields.checkOut == ParseTime(Get(row, "Check Out"))
    ensures r.Ok? ==> ResolvedFields(r.value.fields)
  {
    var id :- MappedId(Get(row, "mapped_id"));
    var employee :- Lookup(dir, id);
    var date := ParseDate(Get(row, "Date"));
    var checkIn := ParseTime(Get(row, "Check In"));
    var checkOut := ParseTime(Get(row, "Check Out"));
    var hours := CalculateTotalHours(TimeString(checkIn), TimeString(checkOut));
    if date.None? then Err(InvalidDate)
    else Ok(Resolved(employee, date.value, Fields(checkIn, checkOut, hours)))
  }

  function Resolve(format: Format, dir: Directory, row: RawRow): Result<Resolved, SkipReason> {
    match format
    case Punches => ResolvePunches(dir, row)
    case Flat => ResolveFlat(dir, row)
  }

  /** A resolved row of a well-formed directory names an employee of the
      directory, carries a valid key and fields the table can store, and its hours
      are null exactly when a time is missing. */
  lemma ResolvedIsStorable(format: Format, dir: Directory, row: RawRow)
    requires WellFormed(dir) && Resolve(format, dir, row).Ok?
    ensures Resolve(format, dir, row).value.employee in dir
    ensures ValidKey(KeyOfResolved(Resolve(format, dir, row).value))
    ensures ValidFields(Resolve(format, dir, row).value.fields)
    ensures var f := Resolve(format, dir, row).value.fields;
      f.totalHours.Null? <==> f.checkIn.None? || f.checkOut.None?
  {
    var res := Resolve(format, dir, row).value;
    assert res.employee in dir && ResolvedFields(res.fields);
    var j :| 0 <= j < |dir| && dir[j] == res.employee;
    assert ValidEmployee(dir[j]);
    TotalHoursStorable(res.fields.checkIn, res.fields.checkOut);
  }

  /** The outcome of every row, in row order. */
  function Outcomes(format: Format, dir: Directory, rows: seq<RawRow>): (r: seq<Result<Resolved, SkipReason>>)
    ensures |r| == |rows|
  {
    if rows == [] then [] else [Resolve(format, dir, rows[0])] + Outcomes(format, dir, rows[1..])
  }

  lemma {:induction false} OutcomeAt(format: Format, dir: Directory, rows: seq<RawRow>, i: int)
    requires 0 <= i < |rows|
    ensures Outcomes(format, dir, rows)[i] == Resolve(format, dir, rows[i])
    decreases |rows|
  {
    if i > 0 {
      OutcomeAt(format, dir, rows[1..], i - 1);
    }
  }
}

=== FILE: sequences.dfy ===
/** Facts about sequences in general, used by the string and punch-list proofs. */
module Sequences {
  lemma AppendAssoc<T>(x: seq<T>, y: seq<T>, z: seq<T>)
    ensures (x + y) + z == x + (y + z)
  {
  }

  /** A sequence is what lies before position `i`, the element there, and the rest. */
  lemma PickOut<T>(s: seq<T>, i: nat)
    requires i < |s|
    ensures s == s[..i] + ([s[i]] + s[i + 1..])
    ensures s == (s[..i] + [s[i]]) + s[i + 1..]
  {
  }
}

=== FILE: timesheets.dfy ===
/** The Timesheet model: one attendance entry per (employee_id, date), and the
    three writes the upload handlers issue against it. */
module Timesheets {
  import opened Options
  import opened Calendar
  import opened Helpers
  import opened Employees

  /** A `timesheets` row. `employeeId` holds the employee's string `employee_id`,
      not its integer `id`. Times and hours may each be null. */
  datatype Entry = Entry(
    id: int,
    employeeId: string,
    date: Date,
    checkIn: Option<TimeOfDay>,
    checkOut: Option<TimeOfDay>,
    totalHours: Hours,
    createdAt: int,
    updatedAt: int)

  /** The columns of the unique index (employee_id, date). */
  datatype Key = Key(employeeId: string, date: Date)

  /** The columns a spreadsheet row writes. */
  datatype Fields = Fields(checkIn: Option<TimeOfDay>, checkOut: Option<TimeOfDay>, totalHours: Hours)

  /** The timesheets table, indexed by its unique key, with the next
      auto-increment id. */
  datatype Ledger = Ledger(entries: map<Key, Entry>, nextId: int)

  function KeyOf(e: Entry): Key {
    Key(e.employeeId, e.date)
  }

  function FieldsOf(e: Entry): Fields {
    Fields(e.checkIn, e.checkOut, e.totalHours)
  }

  predicate ValidFields(f: Fields) {
    && (f.checkIn.Some? ==> ValidTime(f.checkIn.value))
    && (f.checkOut.Some? ==> ValidTime(f.checkOut.value))
    && StorableHours(f.totalHours)
  }

  /** Column types: STRING(50) employee id, a calendar DATEONLY, TIME values and a
      DECIMAL(5,2) total. */
  predicate ValidKey(k: Key) {
    |k.employeeId| <= 50 && ValidDate(k.date)
  }

  predicate ValidEntry(e: Entry) {
    ValidKey(KeyOf(e)) && ValidFields(FieldsOf(e))
  }

  /** The table's invariants: each entry sits under its own (employee_id, date)
      key, so there is at most one per key; ids are distinct and below `nextId`. */
  predicate ValidLedger(l: Ledger) {
    && l.nextId >= 1
    && (forall k :: k in l.entries ==> KeyOf(l.entries[k]) == k && ValidEntry(l.entries[k]))
    && (forall k :: k in l.entries ==> 1 <= l.entries[k].id < l.nextId)
    && (forall k1, k2 :: k1 in l.entries && k2 in l.entries && k1 != k2 ==> l.entries[k1].id != l.entries[k2].id)
  }

  /** The foreign key: every entry's `employee_id` is some employee's `employee_id`. */
  predicate RefersTo(l: Ledger, dir: Directory) {
    forall k :: k in l.entries ==> exists j :: 0 <= j < |dir| && dir[j].employeeId == k.employeeId
  }

  /** `Timesheet.findOne({ where: { employee_id, date } })`. */
  function Find(l: Ledger, k: Key): (r: Option<Entry>)
    ensures r.Some? <==> k in l.entries
    ensures r.Some? ==> r.value == l.entries[k]
    ensures ValidLedger(l) && r.Some? ==> KeyOf(r.value) == k
  {
    if k in l.entries then Some(l.entries[k]) else None
  }

  /** `Timesheet.create(...)`: a new entry under the next id; both timestamps are
      the time of the write. */
  function Create(l: Ledger, k: Key, f: Fields, now: int): (r: Ledger)
    ensures r.entries.Keys == l.entries.Keys + {k}
    ensures forall k' :: k' in l.entries && k' != k ==> r.entries[k'] == l.entries[k']
    ensures KeyOf(r.entries[k]) == k && FieldsOf(r.entries[k]) == f
    ensures r.entries[k].id == l.nextId && r.nextId == l.nextId + 1
    ensures r.entries[k].createdAt == now && r.entries[k].updatedAt == now
  {
    Ledger(l.entries[k := Entry(l.nextId, k.employeeId, k.date, f.checkIn, f.checkOut, f.totalHours, now, now)], l.nextId + 1)
  }

  /** An entry with a row's times and hours written over it and `updatedAt` bumped. */
  function Revise(e: Entry, f: Fields, now: int): (r: Entry)
    ensures FieldsOf(r) == f && r.updatedAt == now
    ensures r.id == e.id && KeyOf(r) == KeyOf(e) && r.createdAt == e.createdAt
  {
    e.(checkIn := f.checkIn, checkOut := f.checkOut, totalHours := f.totalHours, updatedAt := now)
  }

  /** `Timesheet.update({ check_in, check_out, total_hours, updatedAt }, { where: { id } })`:
      every entry carrying that id is revised. */
  function UpdateById(l: Ledger, id: int, f: Fields, now: int): (r: Ledger)
    ensures r.entries.Keys == l.entries.Keys && r.nextId == l.nextId
  {
    Ledger(map k | k in l.entries :: if l.entries[k].id == id then Revise(l.entries[k], f, now) else l.entries[k], l.nextId)
  }

  /** With distinct ids, updating by the id of the entry under `k` revises that entry
      and no other. */
  lemma UpdateByIdTouchesOneEntry(l: Ledger, k: Key, f: Fields, now: int)
    requires ValidLedger(l) && k in l.entries
    ensures UpdateById(l, l.entries[k].id, f, now) == Ledger(l.entries[k := Revise(l.entries[k], f, now)], l.nextId)
  {
    var r := UpdateById(l, l.entries[k].id, f, now);
    var expected := l.entries[k := Revise(l.entries[k], f, now)];
    assert forall k' :: k' in l.entries ==> r.entries[k'] == expected[k'];
  }

  datatype Action = Created | Updated

  /** `Timesheet.upsert(..., { conflictFields: ['employee_id', 'date'] })`, one
      atomic insert-or-update. Afterwards the key holds the row's fields stamped
      `now`; an existing entry keeps its id, employee, date and creation time, a
      new one takes the next id; every other entry is untouched. */
  function Upsert(l: Ledger, k: Key, f: Fields, now: int): (r: (Ledger, Action))
    ensures r.1 == Created <==> k !in l.entries
    ensures r.0.entries.Keys == l.entries.Keys + {k}
    ensures FieldsOf(r.0.entries[k]) == f && r.0.entries[k].updatedAt == now
    ensures forall k' :: k' in l.entries && k' != k ==> r.0.entries[k'] == l.entries[k']
    ensures r.1 == Updated ==>
      && r.0.entries[k].id == l.entries[k].id
      && KeyOf(r.0.entries[k]) == KeyOf(l.entries[k])
      && r.0.entries[k].createdAt == l.entries[k].createdAt
      && r.0.nextId == l.nextId
    ensures r.1 == Created ==>
      && KeyOf(r.0.entries[k]) == k
      && r.0.entries[k].id == l.nextId
      && r.0.entries[k].createdAt == now
      && r.0.nextId == l.nextId + 1
  {
    if k in l.entries then (Ledger(l.entries[k := Revise(l.entries[k], f, now)], l.nextId), Updated)
    else (Create(l, k, f, now), Created)
  }

  /** The flat handler's write: `findOne` by key, then `update` by the found id or
      `create`. */
  function FindThenWrite(l: Ledger, k: Key, f: Fields, now: int): (r: (Ledger, Action))
    ensures r.1 == Created <==> k !in l.entries
  {
    match Find(l, k)
    case Some(e) => (UpdateById(l, e.id, f, now), Updated)
    case None => (Create(l, k, f, now), Created)
  }

  /** On a table that keeps its invariants, find-then-write has exactly the effect
      of the atomic upsert. */
  lemma FindThenWriteIsUpsert(l: Ledger, k: Key, f: Fields, now: int)
    requires ValidLedger(l)
    ensures FindThenWrite(l, k, f, now) == Upsert(l, k, f, now)
  {
    if k in l.entries {
      UpdateByIdTouchesOneEntry(l, k, f, now);
    }
  }

  /** Upserting well-typed values keeps the table's invariants. */
  lemma UpsertKeepsLedgerValid(l: Ledger, k: Key, f: Fields, now: int)
    requires ValidLedger(l) && ValidKey(k) && ValidFields(f)
    ensures ValidLedger(Upsert(l, k, f, now).0)
  {
    var r := Upsert(l, k, f, now).0;
    forall k1, k2 | k1 in r.entries && k2 in r.entries && k1 != k2
      ensures r.entries[k1].id != r.entries[k2].id
    {
      if k1 != k && k2 != k {
        assert r.entries[k1] == l.entries[k1] && r.entries[k2] == l.entries[k2];
      }
    }
  }

  /** Upserting under an existing employee's `employee_id` keeps the foreign key. */
  lemma UpsertKeepsReferences(l: Ledger, dir: Directory, j: int, date: Date, f: Fields, now: int)
    requires ValidLedger(l) && RefersTo(l, dir) && 0 <= j < |dir|
    ensures RefersTo(Upsert(l, Key(dir[j].employeeId, date), f, now).0, dir)
  {
  }
}

=== FILE: upload.dfy ===
/** The two upload handlers over a decoded sheet: the rows' outcomes, the whole
    batch, and the properties of an upload as a whole. */
module Upload {
  import opened Options
  import opened Helpers
  import opened Employees
  import opened Timesheets
  import opened Rows
  import opened Batches

  /** With a well-formed directory, whatever the rows resolve to can be stored. */
  lemma OutcomesStorable(format: Format, dir: Directory, rows: seq<RawRow>)
    requires WellFormed(dir)
    ensures Storable(Outcomes(format, dir, rows), dir)
  {
    var outs := Outcomes(format, dir, rows);
    forall i | 0 <= i < |outs| && outs[i].Ok?
      ensures outs[i].value.employee in dir
      ensures ValidKey(KeyOfResolved(outs[i].value)) && ValidFields(outs[i].value.fields)
    {
      OutcomeAt(format, dir, rows, i);
      ResolvedIsStorable(format, dir, rows[i]);
    }
  }

  /** The tallies and records of a whole upload, starting from zero: every row is
      counted once and every record stands for a row that was written. */
  function Reconcile(format: Format, dir: Directory, now: int, l: Ledger, rows: seq<RawRow>): (r: Batch)
    ensures Counted(r) == |rows|
    ensures |r.records| == r.created + r.updated
  {
    Run(format, now, Start(l), Outcomes(format, dir, rows))
  }

  /** An upload into a table that keeps its invariants leaves one that keeps
      them: one entry per (employee, date), distinct ids, and every entry naming
      an employee of the directory. */
  lemma ReconcileKeepsLedgerValid(format: Format, dir: Directory, now: int, l: Ledger, rows: seq<RawRow>)
    requires WellFormed(dir) && ValidLedger(l) && RefersTo(l, dir)
    ensures ValidLedger(Reconcile(format, dir, now, l, rows).ledger)
    ensures RefersTo(Reconcile(format, dir, now, l, rows).ledger, dir)
  {
    OutcomesStorable(format, dir, rows);
    RunKeepsLedgerValid(format, now, Start(l), Outcomes(format, dir, rows), dir);
  }

  /** The records of an upload are its resolved rows, one each, in row order. */
  lemma ReconcileRecordsInOrder(format: Format, dir: Directory, now: int, l: Ledger, rows: seq<RawRow>)
    ensures Describes(Reconcile(format, dir, now, l, rows).records, Resolutions(Outcomes(format, dir, rows)))
  {
    var r := Reconcile(format, dir, now, l, rows);
    RunRecords(format, now, Start(l), Outcomes(format, dir, rows));
    assert r.records[0..] == r.records;
  }

  /** Uploading the same sheet a second time creates nothing: the rows written
      the first time are all updates, the same rows are skipped, and the table
      keeps its keys and its times and hours. */
  lemma ReuploadCreatesNothing(format: Format, dir: Directory, now: int, later: int, l: Ledger, rows: seq<RawRow>)
    requires WellFormed(dir) && ValidLedger(l) && RefersTo(l, dir)
    ensures var b1 := Reconcile(format, dir, now, l, rows);
      var b2 := Reconcile(format, dir, later, b1.ledger, rows);
      && b2.created == 0 && b2.updated == b1.created + b1.updated && b2.skipped == b1.skipped
      && b2.ledger.entries.Keys == b1.ledger.entries.Keys
      && (forall k :: k in b1.ledger.entries ==> FieldsOf(b2.ledger.entries[k]) == FieldsOf(b1.ledger.entries[k]))
  {
    OutcomesStorable(format, dir, rows);
    RerunIsIdempotent(format, now, later, l, Outcomes(format, dir, rows), dir);
  }

  /** What a handler answers once the sheet is decoded: the "no rows" error, or
      the summary and the records of the upload. */
  datatype Response = NoRowsFound | Completed(summary: Stats, records: seq<OutcomeRecord>)

  /** A handler's locals between rows: the table as written so far, the three
      counters and the records pushed so far. */
  datatype Progress = Progress(table: Ledger, created: nat, updated: nat, skipped: nat, processed: seq<OutcomeRecord>)

  /** What a handler holds after the rows of a batch. */
  function ProgressOf(b: Batch): Progress {
    Progress(b.ledger, b.created, b.updated, b.skipped, Records(b.records))
  }

  lemma RecordsSnoc(ps: seq<Processed>, p: Processed)
    ensures Records(ps + [p]) == Records(ps) + [RecordOf(p)]
  {
    assert (ps + [p])[..|ps|] == ps;
  }

  /** The rest of a packed row's iteration once it is checked: a skip is counted,
      a resolved row is upserted, counted by what the upsert did and recorded. */
  method UpsertRow(now: int, p: Progress, o: Outcome, ghost b: Batch) returns (q: Progress)
    requires p == ProgressOf(b)
    ensures q == ProgressOf(Step(Punches, now, b, o))
  {
    match o {
      case Err(_) =>
        q := p.(skipped := p.skipped + 1);
      case Ok(res) =>
        var (table, action) := Upsert(p.table, KeyOfResolved(res), res.fields, now);
        ghost var n := Step(Punches, now, b, o);
        assert n.ledger == table && n.records == b.records + [Processed(res, action)];
        if action == Created {
          RecordsSnoc(b.records, Processed(res, Created));
          q := Progress(table, p.created + 1, p.updated, p.skipped, p.processed + [RecordOf(Processed(res, Created))]);
        } else {
          RecordsSnoc(b.records, Processed(res, Updated));
          q := Progress(table, p.created, p.updated + 1, p.skipped, p.processed + [RecordOf(Processed(res, Updated))]);
        }
    }
  }

  /** The rest of a flat row's iteration once it is checked: a skip is counted; a
      resolved row's entry is looked up, then updated by id or created, counted
      and recorded. */
  method FindThenWriteRow(now: int, p: Progress, o: Outcome, ghost b: Batch) returns (q: Progress)
    requires p == ProgressOf(b)
    ensures q == ProgressOf(Step(Flat, now, b, o))
  {
    match o {
      case Err(_) =>
        q := p.(skipped := p.skipped + 1);
      case Ok(res) =>
        var k := KeyOfResolved(res);
        ghost var n := Step(Flat, now, b, o);
        assert n.ledger == FindThenWrite(p.table, k, res.fields, now).0;
        match Find(p.table, k) {
          case Some(existing) =>
            assert n == Batch(UpdateById(p.table, existing.id, res.fields, now), b.created, b.updated + 1, b.skipped,
              b.records + [Processed(res, Updated)]);
            RecordsSnoc(b.records, Processed(res, Updated));
            q := Progress(UpdateById(p.table, existing.id, res.fields, now), p.created, p.updated + 1, p.skipped,
              p.processed + [RecordOf(Processed(res, Updated))]);
          case None =>
            assert n == Batch(Create(p.table, k, res.fields, now), b.created + 1, b.updated, b.skipped,
              b.records + [Processed(res, Created)]);
            RecordsSnoc(b.records, Processed(res, Created));
            q := Progress(Create(p.table, k, res.fields, now), p.created + 1, p.updated, p.skipped,
              p.processed + [RecordOf(Processed(res, Created))]);
        }
    }
  }

  /** `uploadTimesheetWithSequelizeUpsert`: each row of the packed sheet is
      checked and, if it resolves, upserted on its (employee, date) key. Returns
      the response and the table after the upload. */
  method UploadWithUpsert(dir: Directory, now: int, l: Ledger, rows: seq<RawRow>) returns (response: Response, table: Ledger)
    ensures rows == [] <==> response == NoRowsFound
    ensures rows == [] ==> table == l
    ensures rows != [] ==>
      var b := Reconcile(Punches, dir, now, l, rows);
      response == Completed(Summary(b), Records(b.records)) && table == b.ledger
    ensures response.Completed? ==>
      && response.summary.created + response.summary.updated + response.summary.skipped == |rows|
      && |response.records| == response.summary.created + response.summary.updated
  {
    if |rows| == 0 {
      return NoRowsFound, l;
    }
    var p := Progress(l, 0, 0, 0, []);
    ghost var outs := Outcomes(Punches, dir, rows);
    ghost var b := Start(l);
    var i := 0;
    while i < |rows|
      invariant 0 <= i <= |rows|
      invariant b == Run(Punches, now, Start(l), outs[..i])
      invariant p == ProgressOf(b)
    {
      OutcomeAt(Punches, dir, rows, i);
      RunSnoc(Punches, now, Start(l), outs, i);
      p := UpsertRow(now, p, Resolve(Punches, dir, rows[i]), b);
      b := Step(Punches, now, b, outs[i]);
      i := i + 1;
    }
    assert outs[..i] == outs;
    response := Completed(Stats(p.created, p.updated, p.skipped), p.processed);
    table := p.table;
  }

  /** `uploadTimesheet`: each row of the flat sheet is checked and, if it
      resolves, written by find-then-update-or-create. Returns the response and
      the table after the upload. */
  method UploadFlat(dir: Directory, now: int, l: Ledger, rows: seq<RawRow>) returns (response: Response, table: Ledger)
    ensures rows == [] <==> response == NoRowsFound
    ensures rows == [] ==> table == l
    ensures rows != [] ==>
      var b := Reconcile(Flat, dir, now, l, rows);
      response == Completed(Summary(b), Records(b.records)) && table == b.ledger
    ensures response.Completed? ==>
      && response.summary.created + response.summary.updated + response.summary.skipped == |rows|
      && |response.records| == response.summary.created + response.summary.updated
  {
    if |rows| == 0 {
      return NoRowsFound, l;
    }
    var p := Progress(l, 0, 0, 0, []);
    ghost var outs := Outcomes(Flat, dir, rows);
    ghost var b := Start(l);
    var i := 0;
    while i < |rows|
      invariant 0 <= i <= |rows|
      invariant b == Run(Flat, now, Start(l), outs[..i])
      invariant p == ProgressOf(b)
    {
      OutcomeAt(Flat, dir, rows, i);
      RunSnoc(Flat, now, Start(l), outs, i);
      p := FindThenWriteRow(now, p, Resolve(Flat, dir, rows[i]), b);
      b := Step(Flat, now, b, outs[i]);
      i := i + 1;
    }
    assert outs[..i] == outs;
    response := Completed(Stats(p.created, p.updated, p.skipped), p.processed);
    table := p.table;
  }
}
